=== FILE: README.md ===
# CraftingCore in Dafny

A Dafny model of the core of the CraftingCore add-on. The add-on crafts waystones and
tablets from the player's inventory. The model covers four parts:

- **The decision engine** (`ItemManager.cs`). Which inventory items are legal crafting
  targets, how their mods are counted, which currency each one gets next, and the ordered
  crafting queue `ParseItems` builds from an inventory snapshot.
- **The waystone score** (`WaystoneScoring.cs`). The banned-modifier list parsed from its
  comma-separated setting, and the score as a veto or a weighted sum of eight accumulators.
- **The input trace** (`ActionsHandler.cs`). `CleanUp`, `PressKey`, `FindCurrency`,
  `CraftItem` and `ProcessCrafting` as functions that return the key and mouse events they
  send, with the delays erased.
- **The routine** (`CraftingCoRoutine.cs`). Registration with the task runner, and the
  `do`/`while` attempt loop of `AutoCraftRoutine`, as a bounded state machine over the
  game states its attempts see.

Files:

| file | contents |
|---|---|
| `wrappers.dfy` | `Option` (null) and `Outcome` (returned or threw) |
| `text.dfy` | the .NET string operations used: `Trim`, `ToLower`, `Split`, `StartsWith`, `EndsWith`, `Contains` |
| `items.dfy` | items and their components, the six currencies, settings, work items |
| `item_manager.dfy` | eligibility, mod counting, currency selection, queue building, `ParseItems` |
| `waystone_scoring.dfy` | banned-list parsing and the waystone score |
| `actions_handler.dfy` | input events, held-key replay, and the crafting trace |
| `crafting_coroutine.dfy` | task registration and the attempt loop |

Modelling choices:

- A null reference is `None`.
- An exception that escapes a method is `Threw`.
- The crafting queue `CraftableItems` is `None` until the first successful parse. Reading
  its `Count` then throws.
- An item is a waystone when it has a `Map` component. It is a tablet when it has a `Base`
  component and the host reports a tower-augment base class. An item can be both: the
  waystone table then decides its currency.
- Each attempt of the routine sees a given `Attempt`: the game data `ParseItems` reads, the
  stash view `FindCurrency` reads, and where, if anywhere, the input layer throws.
- The key-ups of `CleanUp` never throw, so its catch branch is not modelled. Inside the guarded
  part of `ProcessCrafting` the input layer may throw at any event, a key-up included.

## Model

| member | source | states |
|---|---|---|
| Items.FirstNamed | ItemManager.cs:238 | `FirstOrDefault` by name: a result is a list member with that name; null only when no member has it |
| Items.CurrencyNamedRoundTrip | CraftingCore.cs:20-28 | looking a currency up in the add-on's list by its own name finds that same currency, so the selector's lookups never give null |
| Text.Trim | WaystoneScoring.cs:18 | the result is the infix of the input between an all-white-space head and tail, and it neither starts nor ends with white space, so those ends are the longest ones; it is empty exactly when the input is all white space |
| Text.TrimKeepsCharacters | WaystoneScoring.cs:18 | trimming only removes characters: every character of the result occurs in the input |
| Text.LowerIsLower | WaystoneScoring.cs:18 | lower-casing leaves no upper-case letter and is idempotent |
| Text.ContainsAt | WaystoneScoring.cs:112 | `Contains` holds exactly when the needle occurs at some offset of the haystack |
| Text.Split | WaystoneScoring.cs:17 | splitting gives at least one piece, no piece holds the separator, and joining the pieces with it gives the input back |
| ItemManager.IsCraftable | ItemManager.cs:116-150 | craftable exactly when Mods and Base are present, not Unique, not corrupted, a waystone or tablet, tablets Normal/Magic, waystones Normal/Magic/Rare, and no Magic waystone in alchemy-only mode |
| ItemManager.GetModCount | ItemManager.cs:176-200 | 0 for a null mod list, otherwise at most the number of mods |
| ItemManager.CountWhereDisjointSum | ItemManager.cs:183-199 | the separate suffix and prefix counts add up to the count of mods that are either |
| ItemManager.CountWhereIsCardinality | ItemManager.cs:183-197 | the one-pass count equals the number of positions holding a matching mod |
| ItemManager.ModCountIsCountedMods | ItemManager.cs:183-199 | the waystone mod count is the number of mods that start with "of" (ignoring case) or lie outside the delirium group, so a delirium mod named "of…" still counts |
| ItemManager.GetTabletModCount | ItemManager.cs:289-306 | 0 for a null mod list, otherwise at most the number of mods |
| ItemManager.TabletModCountIsCountedMods | ItemManager.cs:295-305 | the tablet mod count is the number of mods with a non-empty display name outside the delirium group |
| ItemManager.DetermineBestCurrencyForWaystone | ItemManager.cs:224-285 | for each of the six currencies, both directions of the condition that selects it (mode, rarity, mod count, tier, and present-and-on Exalt/Corrupt switches); none without a tier |
| ItemManager.DetermineBestCurrencyForTablet | ItemManager.cs:308-334 | Transmute iff Normal, Augment iff Magic with fewer than two counted mods, nothing else |
| ItemManager.DetermineBestCurrency | ItemManager.cs:202-222 | none when unidentified; the waystone table for any waystone (even one that is also a tablet); the tablet table for other tablets; none otherwise |
| ItemManager.SixModRareWaystone | ItemManager.cs:240-280 | an identified six-mod rare waystone gets Corrupt exactly when the Corrupt switch is present and on, in both modes, and nothing otherwise |
| ItemManager.BuildQueue | ItemManager.cs:55-104 | every queued item is craftable, carries the currency the selector picks for it, and that currency's switch is not present-and-off; the queue is no longer than the slot list |
| ItemManager.QueueFollowsInventoryOrder | ItemManager.cs:55-104 | the queue is an order-preserving selection of admitted slots, each slot used at most once |
| ItemManager.QueueHasEveryAdmittedSlot | ItemManager.cs:55-104 | every admitted slot's work item is in the queue |
| ItemManager.QueueCountsAdmittedSlots | ItemManager.cs:55-104 | one work item per admitted slot: the queue is as long as the number of admitted slots, and each work item occurs as often as there are admitted slots giving it, so slots holding the same item are queued once each |
| ItemManager.MissingKeyIsQueued | ItemManager.cs:78-97 | an eligible slot whose currency has no switch at all is queued |
| ItemManager.ParseItems | ItemManager.cs:17-113 | succeeds exactly when the first inventory's slot list is reachable; on failure the previous queue and offset are kept; on success the offset is the window corner and no queued currency is switched off |
| ItemManager.ParsedQueueIsAdmittedSlots | ItemManager.cs:17-104 | a successful parse queues the work items of the first inventory's admitted slots: in inventory order, each slot at most once, and every admitted slot, with one entry per admitted slot so that equal work items keep their multiplicity |
| ItemManager.OneNormalWaystone | ItemManager.cs:55-98 | one identified, uncorrupted normal waystone in the default mode gives a queue of exactly one Transmute step at its slot |
| WaystoneScoring.NormalizeIsEntry | WaystoneScoring.cs:17-19 | a comma-free piece that is not blank once trimmed and lower-cased is a non-empty, trimmed, lower-case, comma-free entry |
| WaystoneScoring.DropBlankKeepsNonBlank | WaystoneScoring.cs:19 | the blank filter keeps exactly the non-blank strings, in order, each as many times as it occurs |
| WaystoneScoring.ParseBannedModifiers | WaystoneScoring.cs:14-21 | every entry is non-empty, trimmed, lower-case and comma-free |
| WaystoneScoring.BlankSettingBansNothing | WaystoneScoring.cs:14-21 | an empty or all-white-space setting gives an empty list, which vetoes no modifier name |
| WaystoneScoring.BannedIffOccurs | WaystoneScoring.cs:110-113 | a name is banned exactly when some banned entry occurs in it at some offset once both are lower-cased; an occurrence in the same case always bans |
| WaystoneScoring.BannedAreNormalizedPieces | WaystoneScoring.cs:16-20 | the list is the normalised pieces in split order with blank ones dropped: a string is banned exactly when it is non-blank and some piece normalises to it, and it is listed as many times as pieces normalise to it |
| WaystoneScoring.PrefixCaseIsReachable | WaystoneScoring.cs:50-90 | a name reaches the additional-packs case exactly when it starts with that prefix, since no earlier case name does |
| WaystoneScoring.SwitchCaseAddsGain | WaystoneScoring.cs:50-90 | each case of the switch fails exactly when it reads a missing value, and otherwise adds that case's accumulator-wise gain |
| WaystoneScoring.AccumulateAddsGain | WaystoneScoring.cs:50-90 | one mod fails exactly when it lacks a value its case reads, and otherwise adds the mod's gain |
| WaystoneScoring.ScanIsVetoOrTotal | WaystoneScoring.cs:45-91 | on well-formed mods the loop vetoes exactly when some mod, at any position, is banned; otherwise it adds the gains of all mods |
| WaystoneScoring.ScanFaultNeedsMissingValue | WaystoneScoring.cs:45-91 | the loop throws only if some mod lacks a value its case reads |
| WaystoneScoring.CalculateWaystoneScore | WaystoneScoring.cs:23-108 | 0 without a Mods or Map component and below the minimum tier; an exception only for a null mod list or a mod lacking a value |
| WaystoneScoring.ScoreIsVetoOrWeightedTotal | WaystoneScoring.cs:23-108 | a scorable waystone with a banned mod scores 0; otherwise it scores the weighted sum of the total gain of its mods |
| WaystoneScoring.TotalAppend | WaystoneScoring.cs:45-91 | the gains of a concatenation add up |
| WaystoneScoring.TotalPermutation | WaystoneScoring.cs:45-91 | the total gain depends on the multiset of mods only |
| WaystoneScoring.ScoreIgnoresModOrder | WaystoneScoring.cs:45-91 | on a scorable waystone, whose every mod carries the values its case reads, permuting the mods leaves the score unchanged, veto included |
| WaystoneScoring.OrderMattersOnMissingValues | WaystoneScoring.cs:45-55 | off the scorable waystones order matters: a mod lacking a value its case reads throws before a banned mod, while after a banned mod it is never read and the score is 0 |
| WaystoneScoring.OrderMattersExample | WaystoneScoring.cs:45-55 | a rarity mod without values and a mod whose display name is banned: that order throws, the reverse order scores 0 |
| WaystoneScoring.TotalFlag | WaystoneScoring.cs:62-63 | the extra-rare-modifier flag is set exactly when some mod is the extra-rare-monster mod |
| WaystoneScoring.WeightedPlus | WaystoneScoring.cs:93-107 | the weighted sum is linear in the accumulators, with the flat bonus paid once when both sides set the flag |
| WaystoneScoring.WeightedTotalAppend | WaystoneScoring.cs:93-107 | scores of two mod lists add up, less one bonus when both carry the extra-rare-monster mod |
| WaystoneScoring.ExtraRareBonusOnce | WaystoneScoring.cs:102-105 | a further extra-rare-monster mod adds nothing once one is present: the bonus is paid at most once |
| WaystoneScoring.GainOfNames | WaystoneScoring.cs:50-90 | an unrecognised name contributes nothing; a name with the additional-packs prefix feeds only that accumulator, with its first value |
| WaystoneScoring.TwoValueCases | WaystoneScoring.cs:55-83 | a two-value quantity mod adds its second value to rarity; a two-value magic/rare pack mod adds its second value to the magic-pack accumulator |
| ActionsHandler.ReleaseAllReleases | ActionsHandler.cs:22-29 | releasing a list of keys leaves held exactly the held keys not in the list |
| ActionsHandler.CleanUp | ActionsHandler.cs:17-37 | eight key-ups: LControl, RControl, Shift, LShift, RShift, Alt, LButton, RButton, in that order |
| ActionsHandler.CleanUpReleasesEverything | ActionsHandler.cs:17-37 | after `CleanUp` no key is held, whatever happened before |
| ActionsHandler.CleanUpTwiceIsHarmless | ActionsHandler.cs:17-37 | a second `CleanUp` leaves the held keys as the first left them |
| ActionsHandler.PressKey | ActionsHandler.cs:39-50 | exactly `repetitions` key-down/key-up pairs, alternating and starting with key-down; none when `repetitions` is not positive |
| ActionsHandler.PressKeyLeavesKeyUp | ActionsHandler.cs:39-50 | pressing a key a positive number of times leaves it released and touches no other key |
| ActionsHandler.FirstMatch | ActionsHandler.cs:148-164 | none exactly when no entry matches; otherwise the centre of a matching entry with no match before it, null entries and paths skipped |
| ActionsHandler.FindCurrency | ActionsHandler.cs:137-165 | throws exactly without a stash element; null when the tab is inaccessible; otherwise the first match among the visible items |
| ActionsHandler.CraftItem | ActionsHandler.cs:108-135 | throws only when looking up the currency with no stash element; false exactly for a missing currency without the skip, with no events; on success the last events move to the item plus the offset and left-click; with the skip, only those two events |
| ActionsHandler.CraftItemPicksUpFoundCurrency | ActionsHandler.cs:110-131 | without the skip, a found currency is right-clicked at its position plus the offset before the item is used |
| ActionsHandler.ItemClicksLayout | ActionsHandler.cs:88-91 | the item loop's events by position: a move to item `i / 2` plus the offset at even positions, a left-click at odd ones |
| ActionsHandler.Guarded | ActionsHandler.cs:73-97 | the shift key-up of `finally` always ends the trace; the result is false exactly when the input layer throws inside the body, whose events up to the fault are kept |
| ActionsHandler.ProcessCrafting | ActionsHandler.cs:52-106 | a null queue reports false and an empty one true, both without events; a missing stash element reports false and a missing currency true, without events; otherwise the guarded crafting body |
| ActionsHandler.CraftingTraceLayout | ActionsHandler.cs:66-97 | the fault-free trace: shift down and up, a move to the currency plus the offset and a right-click, a move and left-click per queued item in queue order, then shift up |
| ActionsHandler.ExactlyOneRightClick | ActionsHandler.cs:80-91 | the fault-free trace right-clicks exactly once: the currency is picked up once for the whole queue |
| ActionsHandler.ShiftNotHeldAtClicks | ActionsHandler.cs:75-91 | shift is not held at any click, whatever keys were held before, because `PressKey` already released it |
| ActionsHandler.ProcessCraftingReleasesShift | ActionsHandler.cs:93-97 | whenever `ProcessCrafting` sends any event, its last one releases shift |
| ActionsHandler.ProcessCraftingFailsOnlyOnException | ActionsHandler.cs:52-106 | the result is false exactly for a null queue, a missing stash element with a non-empty queue, or a fault inside the guarded part |
| ActionsHandler.CursorTargetsAreOffsetPositions | ActionsHandler.cs:80-131 | every cursor target is the located currency's centre or a queued item's position, plus the window offset |
| CraftingCoroutine.InitCraftingCoRoutine | CraftingCoRoutine.cs:11-17 | a routine is launched exactly when none of that name is registered; afterwards one is |
| CraftingCoroutine.StartCraftingCoroutine | CraftingCoRoutine.cs:19-29 | launches exactly when none of that name is registered, and behaves as `InitCraftingCoRoutine` |
| CraftingCoroutine.LaunchIsIdempotent | CraftingCoRoutine.cs:19-29 | a second start or init launches nothing and changes nothing |
| CraftingCoroutine.StopCoroutine | CraftingCoRoutine.cs:31-36 | unregisters exactly the named routine and sends `CleanUp` |
| CraftingCoroutine.StopThenStartRelaunches | CraftingCoRoutine.cs:31-36 | after a stop the routine can be started again, and no key is held |
| CraftingCoroutine.Attempts | CraftingCoRoutine.cs:46-69 | one to three attempts; a further attempt runs only after one whose queue was non-empty; stopping before the bound means the last queue was null or empty; the loop ends abnormally exactly when it stops early on a null queue |
| CraftingCoroutine.AttemptsParseInTurn | CraftingCoRoutine.cs:47-51 | each attempt records the state its own `ParseItems` call left, parsing the game data that attempt sees into the state the attempt before it left |
| CraftingCoroutine.FirstAttemptParses | CraftingCoRoutine.cs:49-51 | the first attempt records the state its `ParseItems` call left |
| CraftingCoroutine.AttemptEventsInTrace | CraftingCoRoutine.cs:47-69 | the loop's events are the attempts' events in attempt order: `CleanUp` after a null queue, `ProcessCrafting`'s events for a non-empty one, nothing for an empty one |
| CraftingCoroutine.ClicksOnlyWithWork | CraftingCoRoutine.cs:52-56 | when no attempt had a non-empty queue, the loop sends no click |
| CraftingCoroutine.AutoCraftRoutine | CraftingCoRoutine.cs:38-86 | the loop's shape; false exactly on an early stop at a null queue; the routine is unregistered; the trace ends with `CleanUp`; on success the cursor restore and mouse move come just before it |
| CraftingCoroutine.RoutineRunsItsLoop | CraftingCoRoutine.cs:38-86 | the routine's log and result are its attempt loop's, and the loop's events open its trace, so the loop's lemmas hold of the routine |
| CraftingCoroutine.Epilogue | CraftingCoRoutine.cs:71-81 | after the loop's events come the cursor restore and mouse move on completion, or `CleanUp` from the outer catch |
| CraftingCoroutine.RoutineReleasesAllKeys | CraftingCoRoutine.cs:82-85 | whatever keys were held before, none is held when the routine ends |
| CraftingCoroutine.StaleQueueIsReused | CraftingCoRoutine.cs:47-56 | when the inventory cannot be read, a non-empty queue left from an earlier run is crafted again in the first attempt |
| CraftingCoroutine.NeverParsedFailsAfterOneAttempt | CraftingCoRoutine.cs:47-85 | with no readable inventory and no earlier queue, the routine returns false after one attempt, having sent only three `CleanUp`s |
| CraftingCoroutine.NothingEligibleNoClicks | CraftingCoRoutine.cs:52-74 | when the first parse finds nothing to craft, the routine stops after one attempt, clicks nothing, restores the cursor and cleans up |

## Left out

- Reading host memory through `GameController` is left out. Component lookups, the base-type class-name lookup behind `IsTablet`, the window rectangle and the stash UI are record fields and parameters.
- `GetWaystoneTier`, `IsWaystone` and `IsTablet` are component-presence tests on those fields.
- `Task.Delay`, the click and extra delays, `SyncTask` and the `TaskRunner`'s scheduling and cancellation are timing and concurrency. The routine's task registry is a set of names.
- `Vector2` floating-point positions are integer points. Only the "position plus offset" shape matters.
- Logging and the `DebugEnabled` branches have no effect on the modelled state.
- The `CraftingCore.cs` plugin glue is left out: settings drawing, hotkeys, `Render` and `CraftingRequirementsMet`. Only its routine name and currency list are used.
- `CraftingSettings.cs` and `CraftingClasses.cs` hold no behaviour. Their shapes are the datatypes of `items.dfy`. The score weights are a parameter record, since `ScoreSettings` is not among those files.
- Text.Lower: `ToLower` and `OrdinalIgnoreCase` fold only the ASCII letters. The culture-dependent mapping of other letters is not modelled.
- ActionsHandler.FindCurrency: `EndsWith` without a comparison argument is culture-sensitive in .NET. It is modelled as an ordinal suffix test.
- ItemManager.ParseItems: `CheckEveryFrameWithThrow` is left out. It cannot fail once `items` is non-null.
- ItemManager.ParseItems: an exception thrown inside the slot loop is left out. Such an exception would leave a partial queue and report false. The loop's host reads do not fail in this model.
- ItemManager.GetTabletModCount: display names are never null. `IsNullOrEmpty` is therefore the empty-string test.
- ItemManager.DetermineBestCurrency: requires a Mods component. Its only caller passes an item that `IsCraftable` accepted, which has one.
- WaystoneScoring.CalculateWaystoneScore: three further exceptions and one culture effect are not modelled. The banned list is a parameter, so the null list before the first `ParseBannedModifiers` call, on which `IsBannedModifier` throws, is not represented. Display names are never null, so `Contains` on a null name does not throw. Mod-list entries and their `Values` lists are never null, so reading a null mod or its values does not throw. The culture-sensitive `StartsWith` of the additional-packs case is an ordinal prefix test.
- WaystoneScoring.CalculateWaystoneScore: the scores are unbounded integers. The 32-bit wrap-around of C# `int` on overflowing sums is not modelled.
- CraftingCoroutine.AutoCraftRoutine: only the guarded part of `ProcessCrafting` may throw. The `finally` key-up of `ProcessCrafting` and the cursor restore and mouse move after the loop never throw. A throw there would reach the outer catch, clean up and return false, so "false exactly on an early stop at a null queue" holds under that assumption.
- CraftingCoroutine.AutoCraftRoutine: the result of `ProcessCrafting` is ignored by the routine, as in the source. An attempt's events follow from its queue, its stash view, its fault and the window offset, not from `ProcessCrafting`'s result.
- CraftingCoroutine.Attempts: each attempt's game state is given, one per attempt. The model takes three of them, as the loop never runs more.

=== FILE: actions_handler.dfy ===
/** The input side of crafting: every operation produces the list of input events it would
    send to the game, with delays erased. A replay of the key events tells which keys are
    left held down. */
module ActionsHandler {
  import opened Wrappers
  import opened Text
  import opened Items

  /** The virtual keys the add-on presses or releases. */
  datatype Key = LControlKey | RControlKey | ShiftKey | LShiftKey | RShiftKey | Alt | LButton | RButton

  datatype MouseButton = Left | Right

  /** One input event sent to the game window. */
  datatype Event =
    | KeyDown(key: Key)
    | KeyUp(key: Key)
    | SetCursor(pos: Point)
    | Click(button: MouseButton)
    | MouseMove

  // ---------------------------------------------------------------------------------------
  // Held keys

  /** The set of held keys after one event. */
  function Step(h: set<Key>, e: Event): set<Key>
  {
    match e
    case KeyDown(k) => h + {k}
    case KeyUp(k) => h - {k}
    case _ => h
  }

  /** The set of held keys after replaying `t` from `h`. */
  function HeldAfter(h: set<Key>, t: seq<Event>): set<Key>
    decreases |t|
  {
    if |t| == 0 then h else HeldAfter(Step(h, t[0]), t[1..])
  }

  /** Replaying a concatenation replays its parts one after the other. */
  lemma {:induction false} HeldAfterAppend(h: set<Key>, a: seq<Event>, b: seq<Event>)
    ensures HeldAfter(h, a + b) == HeldAfter(HeldAfter(h, a), b)
    decreases |a|
  {
    if |a| == 0 {
      assert a + b == b;
    } else {
      assert (a + b)[0] == a[0];
      assert (a + b)[1..] == a[1..] + b;
      HeldAfterAppend(Step(h, a[0]), a[1..], b);
    }
  }

  // ---------------------------------------------------------------------------------------
  // CleanUp and PressKey

  /** The keys `CleanUp` releases, in its order. */
  const CleanupKeys: seq<Key> := [LControlKey, RControlKey, ShiftKey, LShiftKey, RShiftKey, Alt, LButton, RButton]

  /** One key-up per key, in order. */
  function ReleaseAll(keys: seq<Key>): (ev: seq<Event>)
    ensures |ev| == |keys|
    ensures forall i :: 0 <= i < |keys| ==> ev[i] == KeyUp(keys[i])
  {
    if |keys| == 0 then [] else [KeyUp(keys[0])] + ReleaseAll(keys[1..])
  }

  /** Releasing a list of keys leaves exactly the held keys not in the list held. */
  lemma {:induction false} ReleaseAllReleases(h: set<Key>, keys: seq<Key>)
    ensures forall k :: k in HeldAfter(h, ReleaseAll(keys)) <==> k in h && k !in keys
    decreases |keys|
  {
    if |keys| > 0 {
      var ev := ReleaseAll(keys);
      assert ev[0] == KeyUp(keys[0]);
      assert ev[1..] == ReleaseAll(keys[1..]);
      ReleaseAllReleases(h - {keys[0]}, keys[1..]);
      assert forall k :: k in keys <==> k == keys[0] || k in keys[1..];
    }
  }

  /** `CleanUp`: a key-up for each control, shift, alt and mouse-button key, in that order.
      The host's key-up does not throw, so the catch branch is never taken. */
  function CleanUp(): (ev: seq<Event>)
    ensures |ev| == 8
    ensures forall i :: 0 <= i < 8 ==> ev[i] == KeyUp(CleanupKeys[i])
  {
    ReleaseAll(CleanupKeys)
  }

  lemma EveryKeyIsCleaned(k: Key)
    ensures k in CleanupKeys
  {
    match k
    case LControlKey => assert CleanupKeys[0] == k;
    case RControlKey => assert CleanupKeys[1] == k;
    case ShiftKey => assert CleanupKeys[2] == k;
    case LShiftKey => assert CleanupKeys[3] == k;
    case RShiftKey => assert CleanupKeys[4] == k;
    case Alt => assert CleanupKeys[5] == k;
    case LButton => assert CleanupKeys[6] == k;
    case RButton => assert CleanupKeys[7] == k;
  }

  /** Whatever happened before, no key is held after `CleanUp`. */
  lemma CleanUpReleasesEverything(h: set<Key>, t: seq<Event>)
    ensures HeldAfter(h, t + CleanUp()) == {}
  {
    HeldAfterAppend(h, t, CleanUp());
    ReleaseAllReleases(HeldAfter(h, t), CleanupKeys);
    forall k ensures k !in HeldAfter(h, t + CleanUp()) {
      EveryKeyIsCleaned(k);
    }
  }

  /** `CleanUp` reads no state, so a second call changes nothing. */
  lemma CleanUpTwiceIsHarmless(h: set<Key>, t: seq<Event>)
    ensures HeldAfter(h, t + CleanUp() + CleanUp()) == HeldAfter(h, t + CleanUp())
  {
    CleanUpReleasesEverything(h, t);
    CleanUpReleasesEverything(h, t + CleanUp());
  }

  /** `PressKey(key, repetitions)`: `repetitions` press-release pairs of `key`, none when
      `repetitions` is not positive. */
  function PressKey(key: Key, repetitions: int): (ev: seq<Event>)
    ensures |ev| == 2 * (if repetitions > 0 then repetitions else 0)
    ensures forall j :: 0 <= j < |ev| ==> ev[j] == (if j % 2 == 0 then KeyDown(key) else KeyUp(key))
    decreases repetitions
  {
    if repetitions <= 0 then []
    else
      var rest := PressKey(key, repetitions - 1);
      assert forall j :: 2 <= j < 2 + |rest| ==> (j - 2) % 2 == j % 2;
      [KeyDown(key), KeyUp(key)] + rest
  }

  lemma PressReleaseOnce(h: set<Key>, key: Key)
    ensures HeldAfter(h, [KeyDown(key), KeyUp(key)]) == h - {key}
  {
    var t := [KeyDown(key), KeyUp(key)];
    assert t[1..] == [KeyUp(key)];
    assert t[1..][1..] == [];
    assert HeldAfter(h, t) == HeldAfter(h + {key}, [KeyUp(key)]);
    assert HeldAfter(h + {key}, [KeyUp(key)]) == HeldAfter((h + {key}) - {key}, []);
  }

  /** Pressing a key any positive number of times leaves it released and touches no other
      key; in particular `PressKey(ShiftKey, 1)` does not leave shift held. */
  lemma {:induction false} PressKeyLeavesKeyUp(h: set<Key>, key: Key, repetitions: int)
    ensures HeldAfter(h, PressKey(key, repetitions)) == if repetitions > 0 then h - {key} else h
    decreases repetitions
  {
    if repetitions > 0 {
      var ev := PressKey(key, repetitions);
      var rest := PressKey(key, repetitions - 1);
      assert ev == [KeyDown(key), KeyUp(key)] + rest;
      HeldAfterAppend(h, [KeyDown(key), KeyUp(key)], rest);
      PressReleaseOnce(h, key);
      PressKeyLeavesKeyUp(h - {key}, key, repetitions - 1);
    }
  }

  // ---------------------------------------------------------------------------------------
  // FindCurrency

  /** A visible stash item: its item path (null when the item or its path is null) and the
      centre of its client rectangle. */
  datatype StashItem = StashItem(path: Option<string>, center: Point)

  /** What the stash UI shows: no stash element at all (reading it throws), a tab whose item
      list cannot be read, or the visible items (an entry may be null). */
  datatype StashView = NoStashElement | Inaccessible | Visible(items: seq<Option<StashItem>>)

  /** A stash entry whose path ends with the currency name. */
  predicate Matches(s: Option<StashItem>, name: string)
  {
    s.Some? && s.value.path.Some? && EndsWith(s.value.path.value, name)
  }

  /** The scan of the visible items: the centre of the first matching one, skipping null
      entries and null paths. */
  function FirstMatch(items: seq<Option<StashItem>>, name: string): (r: Option<Point>)
    ensures r.None? <==> forall i :: 0 <= i < |items| ==> !Matches(items[i], name)
    ensures r.Some? ==> exists i ::
      0 <= i < |items| && Matches(items[i], name) && items[i].value.center == r.value
      && forall j :: 0 <= j < i ==> !Matches(items[j], name)
  {
    if |items| == 0 then None
    else if Matches(items[0], name) then Some(items[0].value.center)
    else
      var r := FirstMatch(items[1..], name);
      assert forall i :: 1 <= i < |items| ==> items[i] == items[1..][i - 1];
      if r.Some? then
        var i :| 0 <= i < |items[1..]| && Matches(items[1..][i], name) && items[1..][i].value.center == r.value
          && forall j :: 0 <= j < i ==> !Matches(items[1..][j], name);
        assert forall j :: 0 <= j < i + 1 ==> !Matches(items[j], name) by {
          forall j | 0 <= j < i + 1 ensures !Matches(items[j], name) {
            if j > 0 {
              assert items[j] == items[1..][j - 1];
            }
          }
        }
        r
      else r
  }

  /** `FindCurrency`: the position of the first visible stash item whose path ends with
      the name, null when the tab is inaccessible or nothing matches; reading a missing
      stash element throws. */
  function FindCurrency(view: StashView, currencyName: string): (r: Outcome<Option<Point>>)
    ensures r.Threw? <==> view.NoStashElement?
    ensures view.Inaccessible? ==> r == Returned(None)
    ensures view.Visible? ==> r == Returned(FirstMatch(view.items, currencyName))
  {
    match view
    case NoStashElement => Threw
    case Inaccessible => Returned(None)
    case Visible(items) => Returned(FirstMatch(items, currencyName))
  }

  // ---------------------------------------------------------------------------------------
  // CraftItem and ProcessCrafting

  /** Moving to an item and left-clicking it, with the window offset applied. */
  function UseOn(w: WorkItem, offset: Point): seq<Event>
  {
    [SetCursor(w.itemClickPos.Plus(offset)), Click(Left)]
  }

  /** `CraftItem`: unless the pickup is skipped, locate the currency and right-click it
      (failing when it is not found); then move to the item and left-click it. All cursor
      targets are shifted by the window offset. */
  function CraftItem(w: WorkItem, skipCurrencyPickup: bool, view: StashView, offset: Point): (r: Outcome<(seq<Event>, bool)>)
    ensures r.Threw? <==> !skipCurrencyPickup && view.NoStashElement?
    ensures r.Returned? && !r.value.1 ==> r.value.0 == [] && !skipCurrencyPickup
    ensures r.Returned? && r.value.1 ==>
      |r.value.0| >= 2 && r.value.0[|r.value.0| - 2..] == UseOn(w, offset)
    ensures skipCurrencyPickup ==> r == Returned((UseOn(w, offset), true))
    ensures !skipCurrencyPickup && FindCurrency(view, w.currency.Name()) == Returned(None) ==> r == Returned(([], false))
  {
    if skipCurrencyPickup then Returned((UseOn(w, offset), true))
    else
      match FindCurrency(view, w.currency.Name())
      case Threw => Threw
      case Returned(None) => Returned(([], false))
      case Returned(Some(pos)) =>
        Returned(([SetCursor(pos.Plus(offset)), Click(Right)] + UseOn(w, offset), true))
  }

  /** Without the skip, a found currency is picked up by a right-click at its position
      plus the offset before the item is used. */
  lemma CraftItemPicksUpFoundCurrency(w: WorkItem, view: StashView, offset: Point, pos: Point)
    requires FindCurrency(view, w.currency.Name()) == Returned(Some(pos))
    ensures CraftItem(w, false, view, offset) ==
      Returned(([SetCursor(pos.Plus(offset)), Click(Right)] + UseOn(w, offset), true))
  {
  }

  /** The events of the item loop of `ProcessCrafting`: the events of `CraftItem` with the
      pickup skipped (which are `UseOn`), for every queued item in queue order. */
  function ItemClicks(q: seq<WorkItem>, offset: Point): (ev: seq<Event>)
    ensures |ev| == 2 * |q|
  {
    if |q| == 0 then [] else UseOn(q[0], offset) + ItemClicks(q[1..], offset)
  }

  /** The item loop's events, position by position: a move to item `i / 2` at even
      positions and a left-click at odd ones. */
  lemma {:induction false} ItemClicksLayout(q: seq<WorkItem>, offset: Point, i: int)
    requires 0 <= i < 2 * |q|
    ensures ItemClicks(q, offset)[i] ==
      if i % 2 == 0 then SetCursor(q[i / 2].itemClickPos.Plus(offset)) else Click(Left)
    decreases |q|
  {
    var rest := ItemClicks(q[1..], offset);
    assert ItemClicks(q, offset) == UseOn(q[0], offset) + rest;
    if i >= 2 {
      ItemClicksLayout(q[1..], offset, i - 2);
      assert (i - 2) / 2 == i / 2 - 1 && (i - 2) % 2 == i % 2;
      assert q[1..][i / 2 - 1] == q[i / 2];
    }
  }

  /** The events of the guarded part of `ProcessCrafting` once the currency is at `pos`:
      shift pressed and released, the currency picked up once, and every item clicked. */
  function CraftingBody(q: seq<WorkItem>, pos: Point, offset: Point): seq<Event>
  {
    PressKey(ShiftKey, 1) + [SetCursor(pos.Plus(offset)), Click(Right)] + ItemClicks(q, offset)
  }

  /** The guarded part run under `try`/`finally`: when the input layer throws at event
      `fault` of the body, the events before it stay sent, shift is released, and the
      exception makes the call report false. */
  function Guarded(body: seq<Event>, fault: Option<nat>): (r: (seq<Event>, bool))
    ensures !r.1 <==> fault.Some? && fault.value < |body|
    ensures r.1 ==> r.0 == body + [KeyUp(ShiftKey)]
    ensures !r.1 ==> r.0 == body[..fault.value] + [KeyUp(ShiftKey)]
  {
    match fault
    case Some(n) =>
      if n < |body| then (body[..n] + [KeyUp(ShiftKey)], false) else (body + [KeyUp(ShiftKey)], true)
    case None => (body + [KeyUp(ShiftKey)], true)
  }

  /** `ProcessCrafting` over the queue `queue` (null before the first parse). A null queue
      throws at `Count` and reports false; an empty queue or a missing currency sends
      nothing and reports true; otherwise the only currency located is the first item's. */
  function ProcessCrafting(queue: Option<seq<WorkItem>>, view: StashView, offset: Point, fault: Option<nat>): (r: (seq<Event>, bool))
    ensures queue.None? ==> r == ([], false)
    ensures queue == Some([]) ==> r == ([], true)
    ensures queue.Some? && |queue.value| > 0 ==>
      var found := FindCurrency(view, queue.value[0].currency.Name());
      && (found.Threw? ==> r == ([], false))
      && (found == Returned(None) ==> r == ([], true))
      && (found.Returned? && found.value.Some? ==>
            r == Guarded(CraftingBody(queue.value, found.value.value, offset), fault))
  {
    match queue
    case None => ([], false)
    case Some(q) =>
      if |q| == 0 then ([], true)
      else
        match FindCurrency(view, q[0].currency.Name())
        case Threw => ([], false)
        case Returned(None) => ([], true)
        case Returned(Some(pos)) => Guarded(CraftingBody(q, pos, offset), fault)
  }

  /** Number of occurrences of `e` in `t`. */
  function Occurrences(t: seq<Event>, e: Event): nat
  {
    if |t| == 0 then 0 else (if t[0] == e then 1 else 0) + Occurrences(t[1..], e)
  }

  lemma {:induction false} OccurrencesAppend(a: seq<Event>, b: seq<Event>, e: Event)
    ensures Occurrences(a + b, e) == Occurrences(a, e) + Occurrences(b, e)
    decreases |a|
  {
    if |a| == 0 {
      assert a + b == b;
    } else {
      assert (a + b)[0] == a[0];
      assert (a + b)[1..] == a[1..] + b;
      OccurrencesAppend(a[1..], b, e);
    }
  }

  /** A trace none of whose events is `e` has no occurrence of it. */
  lemma {:induction false} OccurrencesNone(t: seq<Event>, e: Event)
    requires forall i :: 0 <= i < |t| ==> t[i] != e
    ensures Occurrences(t, e) == 0
    decreases |t|
  {
    if |t| > 0 {
      assert t[0] != e;
      OccurrencesNone(t[1..], e);
    }
  }

  /** The crafting body is shift down and up, the currency pickup, then the item loop. */
  lemma CraftingBodyShape(q: seq<WorkItem>, pos: Point, offset: Point)
    ensures CraftingBody(q, pos, offset) ==
      [KeyDown(ShiftKey), KeyUp(ShiftKey), SetCursor(pos.Plus(offset)), Click(Right)] + ItemClicks(q, offset)
  {
    assert PressKey(ShiftKey, 1) == [KeyDown(ShiftKey), KeyUp(ShiftKey)];
  }

  /** The successful crafting trace, event by event: shift down and up, the currency
      pickup at the first item's currency, then a move and left-click per queued item in
      queue order, then the release of shift from `finally`. */
  lemma CraftingTraceLayout(q: seq<WorkItem>, pos: Point, offset: Point)
    ensures var t := Guarded(CraftingBody(q, pos, offset), None).0;
      && |t| == 5 + 2 * |q|
      && t[..4] == [KeyDown(ShiftKey), KeyUp(ShiftKey), SetCursor(pos.Plus(offset)), Click(Right)]
      && (forall k :: 0 <= k < |q| ==>
            t[4 + 2 * k] == SetCursor(q[k].itemClickPos.Plus(offset)) && t[5 + 2 * k] == Click(Left))
      && t[|t| - 1] == KeyUp(ShiftKey)
  {
    var clicks := ItemClicks(q, offset);
    var t := Guarded(CraftingBody(q, pos, offset), None).0;
    CraftingBodyShape(q, pos, offset);
    forall k | 0 <= k < |q|
      ensures t[4 + 2 * k] == SetCursor(q[k].itemClickPos.Plus(offset)) && t[5 + 2 * k] == Click(Left)
    {
      ItemClicksLayout(q, offset, 2 * k);
      ItemClicksLayout(q, offset, 2 * k + 1);
      assert t[4 + 2 * k] == clicks[2 * k];
      assert t[5 + 2 * k] == clicks[2 * k + 1];
    }
  }

  /** The item loop never right-clicks and never touches a key. */
  lemma ItemClicksArePlain(q: seq<WorkItem>, offset: Point)
    ensures forall i :: 0 <= i < |ItemClicks(q, offset)| ==>
      && ItemClicks(q, offset)[i] != Click(Right)
      && !ItemClicks(q, offset)[i].KeyDown?
      && !ItemClicks(q, offset)[i].KeyUp?
  {
    forall i | 0 <= i < |ItemClicks(q, offset)|
      ensures ItemClicks(q, offset)[i] != Click(Right)
      ensures !ItemClicks(q, offset)[i].KeyDown? && !ItemClicks(q, offset)[i].KeyUp?
    {
      ItemClicksLayout(q, offset, i);
    }
  }

  /** When the currency is found and nothing throws, the trace right-clicks exactly once:
      the currency is picked up once for the whole queue. */
  lemma ExactlyOneRightClick(q: seq<WorkItem>, pos: Point, offset: Point)
    ensures Occurrences(Guarded(CraftingBody(q, pos, offset), None).0, Click(Right)) == 1
  {
    var clicks := ItemClicks(q, offset);
    var head := [KeyDown(ShiftKey), KeyUp(ShiftKey), SetCursor(pos.Plus(offset)), Click(Right)];
    CraftingBodyShape(q, pos, offset);
    assert Guarded(CraftingBody(q, pos, offset), None).0 == head + clicks + [KeyUp(ShiftKey)];
    OccurrencesAppend(head + clicks, [KeyUp(ShiftKey)], Click(Right));
    OccurrencesAppend(head, clicks, Click(Right));
    ItemClicksArePlain(q, offset);
    OccurrencesNone(clicks, Click(Right));
    assert Occurrences(head, Click(Right)) == 1 by {
      var keys := [KeyDown(ShiftKey), KeyUp(ShiftKey), SetCursor(pos.Plus(offset))];
      assert head == keys + [Click(Right)];
      OccurrencesAppend(keys, [Click(Right)], Click(Right));
      OccurrencesNone(keys, Click(Right));
      assert [Click(Right)][1..] == [];
    }
    assert Occurrences([KeyUp(ShiftKey)], Click(Right)) == 0;
  }

  /** Replaying events that touch no key leaves the held set as it was. */
  lemma {:induction false} NoKeysKeepHeld(h: set<Key>, t: seq<Event>)
    requires forall i :: 0 <= i < |t| ==> !t[i].KeyDown? && !t[i].KeyUp?
    ensures HeldAfter(h, t) == h
    decreases |t|
  {
    if |t| > 0 {
      NoKeysKeepHeld(h, t[1..]);
    }
  }

  /** Shift is not held at any click: `PressKey` releases it before the currency pickup,
      so the clicks are plain clicks, whatever the keys held before. */
  lemma ShiftNotHeldAtClicks(h: set<Key>, q: seq<WorkItem>, pos: Point, offset: Point, fault: Option<nat>)
    ensures var t := Guarded(CraftingBody(q, pos, offset), fault).0;
      forall i :: 0 <= i < |t| && t[i].Click? ==> ShiftKey !in HeldAfter(h, t[..i])
  {
    var body := CraftingBody(q, pos, offset);
    var t := Guarded(body, fault).0;
    forall i | 0 <= i < |t| && t[i].Click? ensures ShiftKey !in HeldAfter(h, t[..i]) {
      ShiftReleasedBeforeClick(h, q, pos, offset, fault, i);
    }
  }

  /** One click of `ShiftNotHeldAtClicks`. */
  lemma ShiftReleasedBeforeClick(h: set<Key>, q: seq<WorkItem>, pos: Point, offset: Point, fault: Option<nat>, i: int)
    requires var t := Guarded(CraftingBody(q, pos, offset), fault).0;
      0 <= i < |t| && t[i].Click?
    ensures ShiftKey !in HeldAfter(h, Guarded(CraftingBody(q, pos, offset), fault).0[..i])
  {
    var body := CraftingBody(q, pos, offset);
    var r := Guarded(body, fault);
    var t := r.0;
    var n := if r.1 then |body| else fault.value;
    assert t == body[..n] + [KeyUp(ShiftKey)];
    CraftingBodyShape(q, pos, offset);
    assert i < n;
    assert t[i] == body[i];
    assert i >= 2;
    assert t[..i] == body[..i];
    ShiftUpAfterPress(h, q, pos, offset, i);
  }

  /** Every prefix of the crafting body past `PressKey` leaves shift released. */
  lemma ShiftUpAfterPress(h: set<Key>, q: seq<WorkItem>, pos: Point, offset: Point, m: int)
    requires 2 <= m <= |CraftingBody(q, pos, offset)|
    ensures ShiftKey !in HeldAfter(h, CraftingBody(q, pos, offset)[..m])
  {
    var body := CraftingBody(q, pos, offset);
    var press := [KeyDown(ShiftKey), KeyUp(ShiftKey)];
    var after := [SetCursor(pos.Plus(offset)), Click(Right)] + ItemClicks(q, offset);
    CraftingBodyShape(q, pos, offset);
    assert body == press + after;
    var pre := after[..m - 2];
    assert body[..m] == press + pre;
    HeldAfterAppend(h, press, pre);
    PressReleaseOnce(h, ShiftKey);
    ItemClicksArePlain(q, offset);
    forall j | 0 <= j < |pre| ensures !pre[j].KeyDown? && !pre[j].KeyUp? {
      if j >= 2 {
        assert pre[j] == ItemClicks(q, offset)[j - 2];
      }
    }
    NoKeysKeepHeld(h - {ShiftKey}, pre);
  }

  /** `ProcessCrafting` never leaves shift held: its last event releases shift whenever it
      sends anything. */
  lemma ProcessCraftingReleasesShift(queue: Option<seq<WorkItem>>, view: StashView, offset: Point, fault: Option<nat>)
    ensures var t := ProcessCrafting(queue, view, offset, fault).0;
      |t| > 0 ==> t[|t| - 1] == KeyUp(ShiftKey)
  {
  }

  /** The result is false exactly when an exception escaped: a null queue, a missing stash
      element, or a fault inside the guarded part. */
  lemma ProcessCraftingFailsOnlyOnException(queue: Option<seq<WorkItem>>, view: StashView, offset: Point, fault: Option<nat>)
    ensures !ProcessCrafting(queue, view, offset, fault).1 <==>
      || queue.None?
      || (|queue.value| > 0 && view.NoStashElement?)
      || (&& |queue.value| > 0
          && FindCurrency(view, queue.value[0].currency.Name()).Returned?
          && FindCurrency(view, queue.value[0].currency.Name()).value.Some?
          && fault.Some?
          && fault.value < |CraftingBody(queue.value, FindCurrency(view, queue.value[0].currency.Name()).value.value, offset)|)
  {
  }

  /** Every cursor target of `ProcessCrafting` is a found position plus the window offset:
      the located currency's centre or a queued item's click position. */
  lemma CursorTargetsAreOffsetPositions(q: seq<WorkItem>, pos: Point, offset: Point, fault: Option<nat>)
    ensures var t := Guarded(CraftingBody(q, pos, offset), fault).0;
      forall i :: 0 <= i < |t| && t[i].SetCursor? ==>
        t[i].pos == pos.Plus(offset) || exists k :: 0 <= k < |q| && t[i].pos == q[k].itemClickPos.Plus(offset)
  {
    var body := CraftingBody(q, pos, offset);
    var t := Guarded(body, fault).0;
    var clicks := ItemClicks(q, offset);
    CraftingBodyShape(q, pos, offset);
    forall i | 0 <= i < |t| && t[i].SetCursor?
      ensures t[i].pos == pos.Plus(offset) || exists k :: 0 <= k < |q| && t[i].pos == q[k].itemClickPos.Plus(offset)
    {
      if 4 <= i < |body| {
        assert t[i] == body[i] == clicks[i - 4];
        ItemClicksLayout(q, offset, i - 4);
      } else if i < |body| {
        assert t[i] == body[i];
      }
    }
  }
}

=== FILE: crafting_coroutine.dfy ===
/** The crafting routine: its registration with the host's task runner, and the bounded
    retry loop that parses the inventory and crafts until the queue is empty or three
    attempts have run. The game state each attempt sees is given as a parameter. */
module CraftingCoroutine {
  import opened Wrappers
  import opened Items
  import opened ItemManager
  import opened ActionsHandler

  /** The name the routine is registered under. */
  const CoroutineName := "ExileCraftingCore"

  /** The bound of the retry loop. */
  const MaxAttempts := 3

  /** The names of the routines the task runner currently runs. */
  type Registry = set<string>

  // ---------------------------------------------------------------------------------------
  // Registration

  /** Register the routine unless a routine of that name is already registered; the flag
      says whether a new routine was launched. */
  function LaunchOnce(tasks: Registry): (r: (Registry, bool))
    ensures r.1 <==> CoroutineName !in tasks
    ensures r.0 == tasks + {CoroutineName}
  {
    if CoroutineName !in tasks then (tasks + {CoroutineName}, true) else (tasks, false)
  }

  /** `InitCraftingCoRoutine`: launches the routine only when none of that name runs. */
  function InitCraftingCoRoutine(tasks: Registry): (r: (Registry, bool))
    ensures r.1 <==> CoroutineName !in tasks
    ensures r.0 == tasks + {CoroutineName}
  {
    LaunchOnce(tasks)
  }

  /** `StartCraftingCoroutine`: the same as `InitCraftingCoRoutine` apart from a log line
      in the already-running case. */
  function StartCraftingCoroutine(tasks: Registry): (r: (Registry, bool))
    ensures r.1 <==> CoroutineName !in tasks
    ensures r.0 == tasks + {CoroutineName}
    ensures r == InitCraftingCoRoutine(tasks)
  {
    LaunchOnce(tasks)
  }

  /** Starting twice launches one routine: the second call finds it registered. */
  lemma LaunchIsIdempotent(tasks: Registry)
    ensures StartCraftingCoroutine(StartCraftingCoroutine(tasks).0) == (StartCraftingCoroutine(tasks).0, false)
    ensures InitCraftingCoRoutine(StartCraftingCoroutine(tasks).0).1 == false
  {
  }

  /** `StopCoroutine`: the named routine is unregistered and all keys are released. */
  function StopCoroutine(tasks: Registry, routineName: string): (r: (Registry, seq<Event>))
    ensures routineName !in r.0 && r.0 <= tasks
    ensures forall n :: n in tasks && n != routineName ==> n in r.0
    ensures r.1 == CleanUp()
  {
    (tasks - {routineName}, CleanUp())
  }

  /** After a stop the routine can be started again, and no key is left held. */
  lemma StopThenStartRelaunches(tasks: Registry, h: set<Key>, t: seq<Event>)
    ensures StartCraftingCoroutine(StopCoroutine(tasks, CoroutineName).0).1
    ensures HeldAfter(h, t + StopCoroutine(tasks, CoroutineName).1) == {}
  {
    CleanUpReleasesEverything(h, t);
  }

  // ---------------------------------------------------------------------------------------
  // The attempt loop

  /** What one attempt sees of the world: the game data `ParseItems` reads, the stash UI
      `FindCurrency` reads, and where (if at all) the input layer throws while crafting. */
  datatype Attempt = Attempt(game: GameState, stash: StashView, fault: Option<nat>)

  /** What one attempt did: the shared state it left after parsing (whose queue stays null
      while no parse has ever succeeded) and whether it crafted. */
  datatype AttemptLog = AttemptLog(state: HostState, crafted: bool)
  {
    function queue(): Option<seq<WorkItem>>
    {
      state.craftableItems
    }
  }

  /** How the loop ended: `completed` is false when the loop condition threw; the shared
      state left behind, and one log entry per attempt. */
  datatype LoopEnd = LoopEnd(completed: bool, host: HostState, log: seq<AttemptLog>)

  /** A non-empty queue. */
  predicate HasWork(queue: Option<seq<WorkItem>>)
  {
    queue.Some? && |queue.value| > 0
  }

  /** The shape of the log of a loop entered after `tries` attempts: at least one and at
      most the remaining attempts ran; an attempt crafted exactly when its queue was
      non-empty; every attempt but the last crafted (a later attempt runs only after a
      crafting one); when the loop stopped before the bound, the last attempt did not
      craft; and the loop ended abnormally exactly when it stopped before the bound on a
      null queue. */
  predicate LoopShape(completed: bool, log: seq<AttemptLog>, tries: nat)
  {
    && 1 <= |log| <= MaxAttempts - tries
    && (forall i :: 0 <= i < |log| ==> (log[i].crafted <==> HasWork(log[i].queue())))
    && (forall i :: 0 <= i < |log| - 1 ==> log[i].crafted)
    && (tries + |log| < MaxAttempts ==> !log[|log| - 1].crafted)
    && (!completed <==> tries + |log| < MaxAttempts && log[|log| - 1].queue().None?)
  }

  /** A last attempt: crafting iff the queue is non-empty, and not crafting unless the
      bound was reached. */
  lemma LoopShapeLast(completed: bool, entry: AttemptLog, tries: nat)
    requires tries < MaxAttempts
    requires entry.crafted <==> HasWork(entry.queue())
    requires tries + 1 < MaxAttempts ==> !entry.crafted
    requires !completed <==> tries + 1 < MaxAttempts && entry.queue().None?
    ensures LoopShape(completed, [entry], tries)
  {
  }

  /** A crafting attempt followed by the log of the remaining loop. */
  lemma LoopShapeCons(completed: bool, entry: AttemptLog, rest: seq<AttemptLog>, tries: nat)
    requires entry.crafted && HasWork(entry.queue())
    requires LoopShape(completed, rest, tries + 1)
    ensures LoopShape(completed, [entry] + rest, tries)
  {
    var log := [entry] + rest;
    assert forall i :: 1 <= i < |log| ==> log[i] == rest[i - 1];
  }

  /** The `do`/`while` loop from attempt `tries` on. After each attempt it continues while
      fewer than three attempts have run and the queue is non-empty; a null queue makes
      the condition throw, which ends the loop abnormally (the short-circuit skips the
      `Count` once three attempts have run). */
  function Attempts(host: HostState, env: seq<Attempt>, settings: CraftSettings, tries: nat): (r: LoopEnd)
    requires tries < MaxAttempts <= |env|
    ensures LoopShape(r.completed, r.log, tries)
    ensures r.host == r.log[|r.log| - 1].state
    decreases MaxAttempts - tries
  {
    var parsed := ParseItems(host, env[tries].game, settings).1;
    var queue := parsed.craftableItems;
    var entry := AttemptLog(parsed, HasWork(queue));
    if tries + 1 < MaxAttempts && queue.None? then
      LoopShapeLast(false, entry, tries);
      LoopEnd(false, parsed, [entry])
    else if tries + 1 < MaxAttempts && HasWork(queue) then
      var rest := Attempts(parsed, env, settings, tries + 1);
      LoopShapeCons(rest.completed, entry, rest.log, tries);
      LoopEnd(rest.completed, rest.host, [entry] + rest.log)
    else
      LoopShapeLast(true, entry, tries);
      LoopEnd(true, parsed, [entry])
  }

  /** Each logged attempt, attempt `from` on, records the state that parsing its own game
      data left, starting from `host` and then from the state the previous attempt left. */
  predicate ParsesInTurn(host: HostState, log: seq<AttemptLog>, env: seq<Attempt>, settings: CraftSettings, from: nat)
    requires from + |log| <= |env|
  {
    forall i :: 0 <= i < |log| ==>
      log[i].state == ParseItems(if i == 0 then host else log[i - 1].state, env[from + i].game, settings).1
  }

  /** The attempts chain their parses: attempt `i` parses the game data it sees into the
      shared state the attempt before it left behind. */
  lemma {:induction false} AttemptsParseInTurn(host: HostState, env: seq<Attempt>, settings: CraftSettings, tries: nat)
    requires tries < MaxAttempts <= |env|
    ensures tries + |Attempts(host, env, settings, tries).log| <= |env|
    ensures ParsesInTurn(host, Attempts(host, env, settings, tries).log, env, settings, tries)
    decreases MaxAttempts - tries
  {
    var r := Attempts(host, env, settings, tries);
    var parsed := ParseItems(host, env[tries].game, settings).1;
    if tries + 1 < MaxAttempts && HasWork(parsed.craftableItems) {
      var rest := Attempts(parsed, env, settings, tries + 1);
      AttemptsParseInTurn(parsed, env, settings, tries + 1);
      assert r.log == [AttemptLog(parsed, true)] + rest.log;
      forall i | 0 <= i < |r.log|
        ensures r.log[i].state == ParseItems(if i == 0 then host else r.log[i - 1].state, env[tries + i].game, settings).1
      {
        if i > 0 {
          assert r.log[i] == rest.log[i - 1];
          assert r.log[i - 1] == if i == 1 then AttemptLog(parsed, true) else rest.log[i - 2];
        }
      }
    }
  }

  /** The events of one attempt's body after parsing: a null queue throws at `Count` and
      the inner catch cleans up; a non-empty queue is crafted; an empty one does nothing. */
  function AttemptEvents(host: HostState, a: Attempt): seq<Event>
  {
    match host.craftableItems
    case None => CleanUp()
    case Some(q) =>
      if |q| > 0 then ProcessCrafting(host.craftableItems, a.stash, host.clickWindowOffset, a.fault).0 else []
  }

  /** The events `ev` gives for each logged attempt, attempt `from` on, in order. */
  function TraceOf(log: seq<AttemptLog>, env: seq<Attempt>, from: nat, ev: (HostState, Attempt) -> seq<Event>): seq<Event>
    requires from + |log| <= |env|
    decreases |log|
  {
    if |log| == 0 then [] else ev(log[0].state, env[from]) + TraceOf(log[1..], env, from + 1, ev)
  }

  /** The events of two consecutive runs of attempts are those of the first run followed by
      those of the second. */
  lemma {:induction false} TraceOfAppend(a: seq<AttemptLog>, b: seq<AttemptLog>, env: seq<Attempt>, from: nat, ev: (HostState, Attempt) -> seq<Event>)
    requires from + |a| + |b| <= |env|
    ensures TraceOf(a + b, env, from, ev) == TraceOf(a, env, from, ev) + TraceOf(b, env, from + |a|, ev)
    decreases |a|
  {
    if |a| == 0 {
      assert a + b == b;
    } else {
      var head := ev(a[0].state, env[from]);
      TraceOfAppend(a[1..], b, env, from + 1, ev);
      assert (a + b)[0] == a[0] && (a + b)[1..] == a[1..] + b;
      assert TraceOf(a + b, env, from, ev) == head + TraceOf(a[1..] + b, env, from + 1, ev);
      assert TraceOf(a, env, from, ev) == head + TraceOf(a[1..], env, from + 1, ev);
    }
  }

  /** The events the logged attempts sent, attempt `from` on, in order. */
  function LogTrace(log: seq<AttemptLog>, env: seq<Attempt>, from: nat): (t: seq<Event>)
    requires from + |log| <= |env|
    ensures |log| > 0 ==> AttemptEvents(log[0].state, env[from]) <= t
  {
    TraceOf(log, env, from, AttemptEvents)
  }

  /** A single attempt's trace is its own events. */
  lemma LogTraceOne(entry: AttemptLog, env: seq<Attempt>, from: nat)
    requires from < |env|
    ensures LogTrace([entry], env, from) == AttemptEvents(entry.state, env[from])
  {
    TraceOfOne(entry, env, from, AttemptEvents);
  }

  /** `LogTraceOne` for any event function. */
  lemma TraceOfOne(entry: AttemptLog, env: seq<Attempt>, from: nat, ev: (HostState, Attempt) -> seq<Event>)
    requires from < |env|
    ensures TraceOf([entry], env, from, ev) == ev(entry.state, env[from])
  {
    assert [entry][1..] == [];
  }

  /** The trace is the attempts' events in attempt order: those of attempt `i` follow the
      events of the attempts before it and precede those of the attempts after it. */
  lemma AttemptEventsInTrace(log: seq<AttemptLog>, env: seq<Attempt>, from: nat, i: int)
    requires from + |log| <= |env| && 0 <= i < |log|
    ensures LogTrace(log, env, from) ==
      LogTrace(log[..i], env, from) + AttemptEvents(log[i].state, env[from + i]) + LogTrace(log[i + 1..], env, from + i + 1)
  {
    TraceOfSplit(log, env, from, i, AttemptEvents);
  }

  /** `AttemptEventsInTrace` for any event function. */
  lemma TraceOfSplit(log: seq<AttemptLog>, env: seq<Attempt>, from: nat, i: int, ev: (HostState, Attempt) -> seq<Event>)
    requires from + |log| <= |env| && 0 <= i < |log|
    ensures TraceOf(log, env, from, ev) ==
      TraceOf(log[..i], env, from, ev) + ev(log[i].state, env[from + i]) + TraceOf(log[i + 1..], env, from + i + 1, ev)
  {
    assert log == log[..i] + ([log[i]] + log[i + 1..]);
    TraceOfAppend(log[..i], [log[i]] + log[i + 1..], env, from, ev);
    TraceOfAppend([log[i]], log[i + 1..], env, from + i, ev);
    assert TraceOf([log[i]], env, from + i, ev) == ev(log[i].state, env[from + i]) by {
      assert [log[i]][1..] == [];
    }
  }

  /** No mouse click in `t`. */
  predicate Clickless(t: seq<Event>)
  {
    forall k :: 0 <= k < |t| ==> !t[k].Click?
  }

  /** An attempt without work sends key-ups only: the clean-up after a null queue, or
      nothing for an empty one. */
  lemma NoWorkNoClicks(host: HostState, a: Attempt)
    requires !HasWork(host.craftableItems)
    ensures Clickless(AttemptEvents(host, a))
  {
  }

  /** Clicks happen only in attempts with work: when no logged attempt had a non-empty
      queue, the trace holds no click. */
  lemma ClicksOnlyWithWork(log: seq<AttemptLog>, env: seq<Attempt>, from: nat)
    requires from + |log| <= |env|
    requires forall i :: 0 <= i < |log| ==> !HasWork(log[i].queue())
    ensures Clickless(LogTrace(log, env, from))
  {
    forall i | 0 <= i < |log| ensures Clickless(AttemptEvents(log[i].state, env[from + i])) {
      NoWorkNoClicks(log[i].state, env[from + i]);
    }
    ClicklessTrace(log, env, from, AttemptEvents);
  }

  /** Click-free events for every attempt give a click-free trace. */
  lemma {:induction false} ClicklessTrace(log: seq<AttemptLog>, env: seq<Attempt>, from: nat, ev: (HostState, Attempt) -> seq<Event>)
    requires from + |log| <= |env|
    requires forall i :: 0 <= i < |log| ==> Clickless(ev(log[i].state, env[from + i]))
    ensures Clickless(TraceOf(log, env, from, ev))
    decreases |log|
  {
    if |log| > 0 {
      assert forall i :: 1 <= i < |log| ==> log[1..][i - 1] == log[i];
      ClicklessTrace(log[1..], env, from + 1, ev);
      var head := ev(log[0].state, env[from]);
      var tail := TraceOf(log[1..], env, from + 1, ev);
      var t: seq<Event> := head + tail;
      assert Clickless(head);
      assert TraceOf(log, env, from, ev) == t;
      forall k | 0 <= k < |t| ensures !t[k].Click? {
        if k >= |head| {
          assert t[k] == tail[k - |head|];
        }
      }
    }
  }

  /** The result of the routine: whether it returned true, the events it sent, the shared
      state and task registry it left, and its attempt log. */
  datatype RoutineEnd = RoutineEnd(ok: bool, trace: seq<Event>, host: HostState, tasks: Registry, log: seq<AttemptLog>)

  /** `AutoCraftRoutine`: the attempt loop; on normal completion the cursor goes back to
      where it was before the routine and a mouse move is sent; if the loop condition
      threw, the outer catch cleans up and the routine returns false. The `finally` stops
      the routine, which always cleans up. */
  function AutoCraftRoutine(tasks: Registry, host: HostState, env: seq<Attempt>, settings: CraftSettings, cursor: Point): (r: RoutineEnd)
    requires |env| >= MaxAttempts
    ensures LoopShape(r.ok, r.log, 0)
    ensures CoroutineName !in r.tasks
    ensures |r.trace| >= 8 && r.trace[|r.trace| - 8..] == CleanUp()
    ensures r.ok ==> |r.trace| >= 10 && r.trace[|r.trace| - 10..|r.trace| - 8] == [SetCursor(cursor), MouseMove]
  {
    var loop := Attempts(host, env, settings, 0);
    var stop := StopCoroutine(tasks, CoroutineName);
    var main := Epilogue(LogTrace(loop.log, env, 0), loop.completed, cursor);
    RoutineEnd(loop.completed, main + stop.1, loop.host, stop.0, loop.log)
  }

  /** The routine runs its attempt loop: its log is the loop's log, and the loop's events
      open its trace, so the loop's lemmas describe the routine. */
  lemma RoutineRunsItsLoop(tasks: Registry, host: HostState, env: seq<Attempt>, settings: CraftSettings, cursor: Point)
    requires |env| >= MaxAttempts
    ensures var r := AutoCraftRoutine(tasks, host, env, settings, cursor);
      && r.log == Attempts(host, env, settings, 0).log
      && r.ok == Attempts(host, env, settings, 0).completed
      && LogTrace(r.log, env, 0) <= r.trace
  {
  }

  /** The first attempt's log entry records the state its parse left. */
  lemma FirstAttemptParses(host: HostState, env: seq<Attempt>, settings: CraftSettings, tries: nat)
    requires tries < MaxAttempts <= |env|
    ensures Attempts(host, env, settings, tries).log[0].state == ParseItems(host, env[tries].game, settings).1
  {
  }

  /** The events of `AutoCraftRoutine` before the `finally`: the loop's events, then the
      cursor restore on normal completion or the outer catch's clean-up. */
  function Epilogue(trace: seq<Event>, completed: bool, cursor: Point): (r: seq<Event>)
    ensures trace <= r
    ensures completed ==> |r| >= 2 && r[|r| - 2..] == [SetCursor(cursor), MouseMove]
    ensures !completed ==> r[|trace|..] == CleanUp()
  {
    if completed then trace + [SetCursor(cursor), MouseMove] else trace + CleanUp()
  }

  /** Whatever keys were held before, the routine leaves none held. */
  lemma RoutineReleasesAllKeys(h: set<Key>, tasks: Registry, host: HostState, env: seq<Attempt>, settings: CraftSettings, cursor: Point)
    requires |env| >= MaxAttempts
    ensures HeldAfter(h, AutoCraftRoutine(tasks, host, env, settings, cursor).trace) == {}
  {
    var t := AutoCraftRoutine(tasks, host, env, settings, cursor).trace;
    assert t == t[..|t| - 8] + CleanUp();
    CleanUpReleasesEverything(h, t[..|t| - 8]);
  }

  /** When the inventory cannot be read, the previous queue is crafted again: a stale
      non-empty queue from an earlier run drives the first attempt. */
  lemma StaleQueueIsReused(tasks: Registry, host: HostState, env: seq<Attempt>, settings: CraftSettings, cursor: Point)
    requires |env| >= MaxAttempts
    requires InventorySlots(env[0].game).None?
    requires HasWork(host.craftableItems)
    ensures var r := AutoCraftRoutine(tasks, host, env, settings, cursor);
      && r.log[0] == AttemptLog(host, true)
      && ProcessCrafting(host.craftableItems, env[0].stash, host.clickWindowOffset, env[0].fault).0 <= r.trace
  {
    assert ParseItems(host, env[0].game, settings).1 == host;
    FirstAttemptParses(host, env, settings, 0);
  }

  /** With no parse ever succeeding and no earlier queue, the first attempt cleans up after
      the null queue throws, and the loop condition throws too: the routine reports false
      after one attempt, having clicked nothing. */
  lemma NeverParsedFailsAfterOneAttempt(tasks: Registry, host: HostState, env: seq<Attempt>, settings: CraftSettings, cursor: Point)
    requires |env| >= MaxAttempts
    requires InventorySlots(env[0].game).None?
    requires host.craftableItems.None?
    ensures var r := AutoCraftRoutine(tasks, host, env, settings, cursor);
      && !r.ok && |r.log| == 1
      && r.trace == CleanUp() + CleanUp() + CleanUp()
  {
    var loop := Attempts(host, env, settings, 0);
    assert ParseItems(host, env[0].game, settings).1 == host;
    FirstAttemptParses(host, env, settings, 0);
    assert loop.log == [AttemptLog(host, false)] && !loop.completed;
    var t := LogTrace(loop.log, env, 0);
    assert t == CleanUp() by {
      LogTraceOne(loop.log[0], env, 0);
    }
    assert Epilogue(t, false, cursor) == CleanUp() + CleanUp();
  }

  /** When the first parse finds nothing craftable, the routine stops after one attempt,
      clicks nothing, restores the cursor, and cleans up. */
  lemma NothingEligibleNoClicks(tasks: Registry, host: HostState, env: seq<Attempt>, settings: CraftSettings, cursor: Point)
    requires |env| >= MaxAttempts
    requires InventorySlots(env[0].game).Some?
    requires BuildQueue(InventorySlots(env[0].game).value, settings) == []
    ensures var r := AutoCraftRoutine(tasks, host, env, settings, cursor);
      && r.ok && |r.log| == 1 && !r.log[0].crafted
      && r.trace == [SetCursor(cursor), MouseMove] + CleanUp()
  {
    var loop := Attempts(host, env, settings, 0);
    FirstAttemptParses(host, env, settings, 0);
    LogTraceOne(loop.log[0], env, 0);
  }
}

=== FILE: item_manager.dfy ===
/** The decision engine: which inventory items may be crafted, which single currency each
    one gets next, and the ordered crafting queue built from an inventory snapshot. */
module ItemManager {
  import opened Wrappers
  import opened Text
  import opened Items

  /** The mod group of the delirium stack counter, which is not a real affix. */
  const DeliriumStacksGroup := "AfflictionMapDeliriumStacks"

  // ---------------------------------------------------------------------------------------
  // Eligibility

  /** Whether an item is a legal crafting target. The body rejects in turn a missing mods
      or base component, a unique, a corrupted item, an item that is neither waystone nor
      tablet, a magic waystone in alchemy-only mode, and a rarity outside the item kind's
      range; the contract states the same gate as one conjunction of independent conditions. */
  function IsCraftable(item: Item, alchemyCraftOnly: bool): (r: bool)
    ensures r <==>
      && item.mods.Some? && item.base.Some?
      && item.mods.value.rarity != Unique
      && !item.base.value.isCorrupted
      && (item.IsWaystone() || item.IsTablet())
      && (item.IsTablet() ==> item.mods.value.rarity in {Normal, Magic})
      && (item.IsWaystone() ==> item.mods.value.rarity in {Normal, Magic, Rare})
      && (alchemyCraftOnly && item.IsWaystone() ==> item.mods.value.rarity != Magic)
  {
    if item.mods.None? || item.base.None? then false
    else
      var rarity := item.mods.value.rarity;
      if rarity == Unique then false
      else if item.base.value.isCorrupted then false
      else
        var isWaystone := item.IsWaystone();
        var isTablet := item.IsTablet();
        if !isWaystone && !isTablet then false
        else if alchemyCraftOnly && isWaystone && rarity == Magic then false
        else if isTablet && rarity != Normal && rarity != Magic then false
        else if isWaystone && rarity != Normal && rarity != Magic && rarity != Rare then false
        else true
  }

  // ---------------------------------------------------------------------------------------
  // Mod counting

  /** A mod whose display name starts with "of", ignoring case, is counted as a suffix. */
  predicate IsSuffixMod(m: Mod)
  {
    StartsWithIgnoreCase(m.displayName, "of")
  }

  /** A waystone prefix is any other mod outside the delirium stack group. */
  predicate IsCountedPrefix(m: Mod)
  {
    !IsSuffixMod(m) && m.group != DeliriumStacksGroup
  }

  /** The mods a waystone's mod count includes: every suffix, whatever its group, and
      every non-delirium prefix. */
  predicate CountsForWaystone(m: Mod)
  {
    IsSuffixMod(m) || m.group != DeliriumStacksGroup
  }

  /** The mods a tablet's mod count includes: named mods outside the delirium group. */
  predicate CountsForTablet(m: Mod)
  {
    m.displayName != "" && m.group != DeliriumStacksGroup
  }

  /** The number of mods satisfying `p`, counted in one left-to-right pass. */
  function CountWhere(mods: seq<Mod>, p: Mod -> bool): (n: nat)
    ensures n <= |mods|
  {
    if |mods| == 0 then 0
    else (if p(mods[0]) then 1 else 0) + CountWhere(mods[1..], p)
  }

  /** The positions of the mods satisfying `p`. */
  ghost function IndexSet(mods: seq<Mod>, p: Mod -> bool): set<int>
  {
    set i | 0 <= i < |mods| && p(mods[i])
  }

  lemma {:induction false} CountWhereAppend(a: seq<Mod>, b: seq<Mod>, p: Mod -> bool)
    ensures CountWhere(a + b, p) == CountWhere(a, p) + CountWhere(b, p)
    decreases |a|
  {
    if |a| > 0 {
      assert (a + b)[1..] == a[1..] + b;
      assert (a + b)[0] == a[0];
      CountWhereAppend(a[1..], b, p);
    } else {
      assert a + b == b;
    }
  }

  /** Appending a mod adds its position to the index set when it matches. */
  lemma IndexSetSnoc(init: seq<Mod>, last: Mod, p: Mod -> bool)
    ensures IndexSet(init + [last], p) == IndexSet(init, p) + (if p(last) then {|init|} else {})
    ensures |init| !in IndexSet(init, p)
  {
    var mods := init + [last];
    forall i ensures i in IndexSet(mods, p) <==> i in IndexSet(init, p) || (p(last) && i == |init|) {
      if 0 <= i < |init| {
        assert mods[i] == init[i];
      }
    }
  }

  /** The one-pass count is the number of positions holding a matching mod. */
  lemma {:induction false} CountWhereIsCardinality(mods: seq<Mod>, p: Mod -> bool)
    ensures CountWhere(mods, p) == |IndexSet(mods, p)|
    decreases |mods|
  {
    if |mods| > 0 {
      var init := mods[..|mods| - 1];
      var last := mods[|mods| - 1];
      assert mods == init + [last];
      CountWhereIsCardinality(init, p);
      CountWhereAppend(init, [last], p);
      assert [last][1..] == [];
      IndexSetSnoc(init, last, p);
    }
  }

  /** Counting two disjoint kinds separately adds up to counting their union. */
  lemma {:induction false} CountWhereDisjointSum(mods: seq<Mod>, p: Mod -> bool, q: Mod -> bool, pq: Mod -> bool)
    requires forall m :: pq(m) <==> p(m) || q(m)
    requires forall m :: !(p(m) && q(m))
    ensures CountWhere(mods, p) + CountWhere(mods, q) == CountWhere(mods, pq)
    decreases |mods|
  {
    if |mods| > 0 {
      CountWhereDisjointSum(mods[1..], p, q, pq);
    }
  }

  /** `GetModCount`: suffixes plus non-delirium prefixes; 0 for a null mod list. */
  function GetModCount(itemMods: Option<seq<Mod>>): (n: nat)
    ensures itemMods.None? ==> n == 0
    ensures itemMods.Some? ==> n <= |itemMods.value|
  {
    match itemMods
    case None => 0
    case Some(mods) =>
      var suffixCount := CountWhere(mods, IsSuffixMod);
      var prefixCount := CountWhere(mods, IsCountedPrefix);
      CountWhereDisjointSum(mods, IsSuffixMod, IsCountedPrefix, CountsForWaystone);
      prefixCount + suffixCount
  }

  /** The waystone mod count is the number of mods that are suffixes or lie outside the
      delirium group; a delirium-group mod whose name starts with "of" still counts. */
  lemma ModCountIsCountedMods(mods: seq<Mod>)
    ensures GetModCount(Some(mods)) == |IndexSet(mods, CountsForWaystone)|
  {
    CountWhereDisjointSum(mods, IsSuffixMod, IsCountedPrefix, CountsForWaystone);
    CountWhereIsCardinality(mods, CountsForWaystone);
  }

  /** `GetTabletModCount`: named non-delirium mods; 0 for a null mod list. */
  function GetTabletModCount(itemMods: Option<seq<Mod>>): (n: nat)
    ensures itemMods.None? ==> n == 0
    ensures itemMods.Some? ==> n <= |itemMods.value|
  {
    match itemMods
    case None => 0
    case Some(mods) => CountWhere(mods, CountsForTablet)
  }

  /** The tablet mod count is the number of named mods outside the delirium group. */
  lemma TabletModCountIsCountedMods(mods: seq<Mod>)
    ensures GetTabletModCount(Some(mods)) == |IndexSet(mods, CountsForTablet)|
  {
    CountWhereIsCardinality(mods, CountsForTablet);
  }

  // ---------------------------------------------------------------------------------------
  // Currency selection

  /** The selector's guard `CurrencyEnabled.TryGetValue(name, out v) && v.Value`: the key
      must be present and switched on. */
  predicate PresentAndOn(en: Enablement, name: string)
  {
    name in en && en[name]
  }

  /** The queue builder's guard `isEnabled || !CurrencyEnabled.ContainsKey(name)`: a
      missing key counts as switched on. */
  predicate OnOrAbsent(en: Enablement, name: string)
  {
    name !in en || en[name]
  }

  /** The next currency for a waystone. Each currency is chosen under exactly the stated
      conditions; in every other case (including a missing tier) there is none. */
  function DetermineBestCurrencyForWaystone(item: Item, mods: ModsComponent, settings: CraftSettings): (r: Option<Currency>)
    ensures item.mapComp.None? ==> r.None?
    ensures r == Some(Transmute) <==>
      item.IsWaystone() && !settings.alchemyCraftOnly && mods.rarity == Normal
    ensures r == Some(Alchemy) <==>
      item.IsWaystone() && settings.alchemyCraftOnly && mods.rarity == Normal
    ensures r == Some(Augment) <==>
      item.IsWaystone() && !settings.alchemyCraftOnly && mods.rarity == Magic
      && GetModCount(mods.itemMods) < 2
    ensures r == Some(Regal) <==>
      item.IsWaystone() && !settings.alchemyCraftOnly && mods.rarity == Magic
      && GetModCount(mods.itemMods) >= 2 && item.mapComp.value.tier >= 10
    ensures r == Some(Exalt) <==>
      item.IsWaystone() && mods.rarity == Rare && GetModCount(mods.itemMods) < 6
      && (if settings.alchemyCraftOnly then PresentAndOn(settings.currencyEnabled, Exalt.Name())
          else item.mapComp.value.tier >= 12)
    ensures r == Some(Corrupt) <==>
      item.IsWaystone() && mods.rarity == Rare && GetModCount(mods.itemMods) == 6
      && PresentAndOn(settings.currencyEnabled, Corrupt.Name())
  {
    match item.mapComp
    case None => None
    case Some(m) =>
      var tier := m.tier;
      var modCount := GetModCount(mods.itemMods);
      var en := settings.currencyEnabled;
      if settings.alchemyCraftOnly then
        if mods.rarity == Normal then Some(Alchemy)
        else if mods.rarity == Rare then
          if modCount < 6 && PresentAndOn(en, Exalt.Name()) then Some(Exalt)
          else if modCount == 6 && PresentAndOn(en, Corrupt.Name()) then Some(Corrupt)
          else None
        else None
      else
        if mods.rarity == Normal then Some(Transmute)
        else if mods.rarity == Magic then
          if modCount < 2 then Some(Augment)
          else if tier >= 10 then Some(Regal)
          else None
        else if mods.rarity == Rare then
          if modCount < 6 && tier >= 12 then Some(Exalt)
          else if modCount == 6 && PresentAndOn(en, Corrupt.Name()) then Some(Corrupt)
          else None
        else None
  }

  /** The next currency for a tablet: Transmute on a normal tablet, Augment on a magic
      tablet with fewer than two counted mods, none otherwise. */
  function DetermineBestCurrencyForTablet(mods: ModsComponent): (r: Option<Currency>)
    ensures r == Some(Transmute) <==> mods.rarity == Normal
    ensures r == Some(Augment) <==> mods.rarity == Magic && GetTabletModCount(mods.itemMods) < 2
    ensures r.None? || r == Some(Transmute) || r == Some(Augment)
  {
    if mods.rarity == Normal then Some(Transmute)
    else if mods.rarity == Magic && GetTabletModCount(mods.itemMods) < 2 then Some(Augment)
    else None
  }

  /** `DetermineBestCurrency`: nothing for unidentified items; the waystone table for any
      item with a map component, even one that is also a tablet; the tablet table for
      other tablets; nothing otherwise. Its callers only pass items with a mods component. */
  function DetermineBestCurrency(item: Item, settings: CraftSettings): (r: Option<Currency>)
    requires item.mods.Some?
    ensures !item.mods.value.identified ==> r.None?
    ensures item.mods.value.identified && item.IsWaystone() ==>
      r == DetermineBestCurrencyForWaystone(item, item.mods.value, settings)
    ensures item.mods.value.identified && !item.IsWaystone() && item.IsTablet() ==>
      r == DetermineBestCurrencyForTablet(item.mods.value)
    ensures !item.IsWaystone() && !item.IsTablet() ==> r.None?
  {
    var mods := item.mods.value;
    if !mods.identified then None
    else if item.IsWaystone() then DetermineBestCurrencyForWaystone(item, mods, settings)
    else if item.IsTablet() then DetermineBestCurrencyForTablet(mods)
    else None
  }

  /** An identified rare waystone with six counted mods gets Corrupt exactly when the
      Corrupt switch is present and on, in both modes; with it off it gets nothing. */
  lemma {:induction false} SixModRareWaystone(item: Item, settings: CraftSettings)
    requires item.mods.Some? && item.mods.value.identified && item.IsWaystone()
    requires item.mods.value.rarity == Rare && GetModCount(item.mods.value.itemMods) == 6
    ensures PresentAndOn(settings.currencyEnabled, Corrupt.Name()) ==>
      DetermineBestCurrency(item, settings) == Some(Corrupt)
    ensures !PresentAndOn(settings.currencyEnabled, Corrupt.Name()) ==>
      DetermineBestCurrency(item, settings).None?
  {
    var r := DetermineBestCurrency(item, settings);
    assert r == DetermineBestCurrencyForWaystone(item, item.mods.value, settings);
    if r.Some? {
      match r.value
      case Transmute =>
      case Alchemy =>
      case Augment =>
      case Regal =>
      case Exalt =>
      case Corrupt =>
    }
  }

  // ---------------------------------------------------------------------------------------
  // Queue building

  /** One inventory slot: its item (null when empty), its address, and its on-screen centre. */
  datatype Slot = Slot(item: Option<Item>, address: int, clickPos: Point)

  /** The host data `ParseItems` walks; every level may be null. */
  datatype Inventory = Inventory(slotItems: Option<seq<Option<Slot>>>)
  datatype ServerData = ServerData(playerInventories: Option<seq<Option<Inventory>>>)
  datatype GameState = GameState(serverData: Option<ServerData>, windowTopLeft: Point)

  /** The add-on's shared state that `ParseItems` writes: the crafting queue (null before
      the first successful parse) and the window offset added to every click. */
  datatype HostState = HostState(craftableItems: Option<seq<WorkItem>>, clickWindowOffset: Point)

  /** The slot list of the first player inventory, or null when any step to it is null or
      the inventory list is empty. */
  function InventorySlots(game: GameState): Option<seq<Option<Slot>>>
  {
    match game.serverData
    case None => None
    case Some(sd) =>
      match sd.playerInventories
      case None => None
      case Some(invs) =>
        if |invs| == 0 then None
        else
          match invs[0]
          case None => None
          case Some(inv) => inv.slotItems
  }

  /** The currency the loop body picks for a slot, or null when it skips the slot: an empty
      slot or item, a zero address, an ineligible item, or no suitable currency. */
  function SlotCurrency(s: Option<Slot>, settings: CraftSettings): Option<Currency>
  {
    if s.None? || s.value.item.None? || s.value.address == 0 then None
    else if !IsCraftable(s.value.item.value, settings.alchemyCraftOnly) then None
    else DetermineBestCurrency(s.value.item.value, settings)
  }

  /** Whether the loop body adds a work item for the slot. */
  predicate Admitted(s: Option<Slot>, settings: CraftSettings)
  {
    var c := SlotCurrency(s, settings);
    c.Some? && OnOrAbsent(settings.currencyEnabled, c.value.Name())
  }

  /** The work item the loop body adds for an admitted slot. */
  function EntryFor(s: Option<Slot>, settings: CraftSettings): WorkItem
    requires Admitted(s, settings)
  {
    WorkItem(SlotCurrency(s, settings).value, s.value.clickPos, s.value.item.value)
  }

  /** The filter-and-emit loop of `ParseItems`. Every queued item is craftable, carries the
      currency the selector picks for it, and that currency is not switched off. */
  function BuildQueue(slots: seq<Option<Slot>>, settings: CraftSettings): (q: seq<WorkItem>)
    ensures |q| <= |slots|
    ensures forall k :: 0 <= k < |q| ==> OnOrAbsent(settings.currencyEnabled, q[k].currency.Name())
    ensures forall k :: 0 <= k < |q| ==>
      && IsCraftable(q[k].item, settings.alchemyCraftOnly)
      && q[k].item.mods.Some?
      && DetermineBestCurrency(q[k].item, settings) == Some(q[k].currency)
  {
    if |slots| == 0 then []
    else
      var rest := BuildQueue(slots[1..], settings);
      if Admitted(slots[0], settings) then [EntryFor(slots[0], settings)] + rest else rest
  }

  /** `q` is an order-preserving selection of `slots` in which every entry is the work item
      of an admitted slot. */
  predicate Embeds(q: seq<WorkItem>, slots: seq<Option<Slot>>, settings: CraftSettings)
    decreases |slots|
  {
    if |q| == 0 then true
    else if |slots| == 0 then false
    else
      || (Admitted(slots[0], settings) && q[0] == EntryFor(slots[0], settings)
          && Embeds(q[1..], slots[1..], settings))
      || Embeds(q, slots[1..], settings)
  }

  /** The queue lists admitted slots only, each once at most, in inventory order. */
  lemma {:induction false} QueueFollowsInventoryOrder(slots: seq<Option<Slot>>, settings: CraftSettings)
    ensures Embeds(BuildQueue(slots, settings), slots, settings)
    decreases |slots|
  {
    if |slots| > 0 {
      QueueFollowsInventoryOrder(slots[1..], settings);
      var q := BuildQueue(slots, settings);
      if Admitted(slots[0], settings) {
        assert q[1..] == BuildQueue(slots[1..], settings);
      }
    }
  }

  /** No admitted slot is missed: each one's work item is in the queue. */
  lemma {:induction false} QueueHasEveryAdmittedSlot(slots: seq<Option<Slot>>, settings: CraftSettings, i: int)
    requires 0 <= i < |slots| && Admitted(slots[i], settings)
    ensures EntryFor(slots[i], settings) in BuildQueue(slots, settings)
    decreases |slots|
  {
    if i > 0 {
      QueueHasEveryAdmittedSlot(slots[1..], settings, i - 1);
      assert slots[1..][i - 1] == slots[i];
    }
  }

  /** The positions of the admitted slots. */
  ghost function AdmittedSlots(slots: seq<Option<Slot>>, settings: CraftSettings): set<int>
  {
    set i | 0 <= i < |slots| && Admitted(slots[i], settings)
  }

  /** The positions of the admitted slots whose work item is `e`. */
  ghost function SlotsFor(slots: seq<Option<Slot>>, settings: CraftSettings, e: WorkItem): set<int>
  {
    set i | 0 <= i < |slots| && Admitted(slots[i], settings) && EntryFor(slots[i], settings) == e
  }

  lemma {:induction false} BuildQueueAppend(a: seq<Option<Slot>>, b: seq<Option<Slot>>, settings: CraftSettings)
    ensures BuildQueue(a + b, settings) == BuildQueue(a, settings) + BuildQueue(b, settings)
    decreases |a|
  {
    if |a| > 0 {
      assert (a + b)[1..] == a[1..] + b;
      assert (a + b)[0] == a[0];
      BuildQueueAppend(a[1..], b, settings);
    } else {
      assert a + b == b;
    }
  }

  /** Appending a slot adds its position to the index sets it belongs to. */
  lemma SlotSetsSnoc(init: seq<Option<Slot>>, last: Option<Slot>, settings: CraftSettings)
    ensures AdmittedSlots(init + [last], settings) ==
      AdmittedSlots(init, settings) + (if Admitted(last, settings) then {|init|} else {})
    ensures |init| !in AdmittedSlots(init, settings)
    ensures forall e :: (SlotsFor(init + [last], settings, e) ==
              SlotsFor(init, settings, e) + (if Admitted(last, settings) && EntryFor(last, settings) == e then {|init|} else {}))
    ensures forall e :: |init| !in SlotsFor(init, settings, e)
  {
    var slots := init + [last];
    forall i | 0 <= i < |init| ensures slots[i] == init[i] { }
  }

  /** The queue holds one work item per admitted slot: its length is the number of admitted
      slots, and each work item occurs as often as there are admitted slots that give it. */
  lemma {:induction false} QueueCountsAdmittedSlots(slots: seq<Option<Slot>>, settings: CraftSettings)
    ensures |BuildQueue(slots, settings)| == |AdmittedSlots(slots, settings)|
    ensures forall e :: multiset(BuildQueue(slots, settings))[e] == |SlotsFor(slots, settings, e)|
    decreases |slots|
  {
    if |slots| > 0 {
      var init := slots[..|slots| - 1];
      var last := slots[|slots| - 1];
      assert slots == init + [last];
      QueueCountsAdmittedSlots(init, settings);
      BuildQueueAppend(init, [last], settings);
      assert [last][1..] == [];
      SlotSetsSnoc(init, last, settings);
    }
  }

  /** A currency whose switch is absent from the settings does not block the queue: an
      eligible slot whose currency has no key is queued. */
  lemma MissingKeyIsQueued(slots: seq<Option<Slot>>, settings: CraftSettings, i: int)
    requires 0 <= i < |slots|
    requires SlotCurrency(slots[i], settings).Some?
    requires SlotCurrency(slots[i], settings).value.Name() !in settings.currencyEnabled
    ensures exists k ::
      0 <= k < |BuildQueue(slots, settings)| && BuildQueue(slots, settings)[k] == EntryFor(slots[i], settings)
  {
    QueueHasEveryAdmittedSlot(slots, settings, i);
  }

  /** `ParseItems`. When the inventory cannot be reached it reports failure and leaves the
      previous queue and offset untouched (those returns precede the reset); otherwise it
      succeeds, replaces the queue with a fresh one, and re-reads the window offset. */
  function ParseItems(host: HostState, game: GameState, settings: CraftSettings): (r: (bool, HostState))
    ensures r.0 <==> InventorySlots(game).Some?
    ensures !r.0 ==> r.1 == host
    ensures r.0 ==> r.1.clickWindowOffset == game.windowTopLeft
    ensures r.0 ==> r.1.craftableItems.Some? && |r.1.craftableItems.value| <= |InventorySlots(game).value|
    ensures r.0 ==> forall k :: 0 <= k < |r.1.craftableItems.value| ==>
      OnOrAbsent(settings.currencyEnabled, r.1.craftableItems.value[k].currency.Name())
  {
    match InventorySlots(game)
    case None => (false, host)
    case Some(slots) =>
      (true, HostState(Some(BuildQueue(slots, settings)), game.windowTopLeft))
  }

  /** A successful parse queues the work items of the admitted slots of the first inventory:
      each of them, once per admitted slot, in inventory order, and nothing else. */
  lemma ParsedQueueIsAdmittedSlots(host: HostState, game: GameState, settings: CraftSettings)
    ensures ParseItems(host, game, settings).0 ==>
      && ParseItems(host, game, settings).1.craftableItems == Some(BuildQueue(InventorySlots(game).value, settings))
      && Embeds(ParseItems(host, game, settings).1.craftableItems.value, InventorySlots(game).value, settings)
      && forall i :: 0 <= i < |InventorySlots(game).value| && Admitted(InventorySlots(game).value[i], settings) ==>
           EntryFor(InventorySlots(game).value[i], settings) in ParseItems(host, game, settings).1.craftableItems.value
    ensures ParseItems(host, game, settings).0 ==>
      && |ParseItems(host, game, settings).1.craftableItems.value| == |AdmittedSlots(InventorySlots(game).value, settings)|
      && forall e :: multiset(ParseItems(host, game, settings).1.craftableItems.value)[e] ==
           |SlotsFor(InventorySlots(game).value, settings, e)|
  {
    if InventorySlots(game).Some? {
      var slots := InventorySlots(game).value;
      QueueFollowsInventoryOrder(slots, settings);
      QueueCountsAdmittedSlots(slots, settings);
      forall i | 0 <= i < |slots| && Admitted(slots[i], settings)
        ensures EntryFor(slots[i], settings) in BuildQueue(slots, settings)
      {
        QueueHasEveryAdmittedSlot(slots, settings, i);
      }
    }
  }

  /** One identified, uncorrupted normal waystone with Transmute on or unset, in the default
      mode, gives a queue of exactly one Transmute step on that item. */
  lemma OneNormalWaystone(item: Item, address: int, pos: Point, settings: CraftSettings)
    requires item.mods.Some? && item.base.Some? && item.IsWaystone()
    requires item.mods.value.rarity == Normal && item.mods.value.identified
    requires !item.base.value.isCorrupted && address != 0
    requires !settings.alchemyCraftOnly
    requires OnOrAbsent(settings.currencyEnabled, Transmute.Name())
    ensures BuildQueue([Some(Slot(Some(item), address, pos))], settings) == [WorkItem(Transmute, pos, item)]
  {
    var slots := [Some(Slot(Some(item), address, pos))];
    assert SlotCurrency(slots[0], settings) == Some(Transmute);
    assert slots[1..] == [];
  }
}

=== FILE: items.dfy ===
/** The records the crafting add-on reads from the game client: inventory items with their
    components, the six crafting currencies, and the work items of the crafting queue. */
module Items {
  import opened Wrappers

  /** Screen or client coordinates (the host uses floating-point vectors). */
  datatype Point = Point(x: int, y: int)
  {
    /** Component-wise sum, `Vector2 + Vector2`. */
    function Plus(d: Point): Point
    {
      Point(x + d.x, y + d.y)
    }
  }

  /** The host's item rarity; `Other` stands for every further value of its wider enum. */
  datatype Rarity = Normal | Magic | Rare | Unique | Other

  /** One rolled modifier: internal name, display name, mod group, and rolled values. */
  datatype Mod = Mod(name: string, displayName: string, group: string, values: seq<int>)

  /** The `Mods` component: rarity, identification, and the mod list (which may be null). */
  datatype ModsComponent = ModsComponent(rarity: Rarity, identified: bool, itemMods: Option<seq<Mod>>)

  /** The `Base` component, of which only the corruption flag is read. */
  datatype BaseComponent = BaseComponent(isCorrupted: bool)

  /** The `Map` component, present exactly on waystones. */
  datatype MapComponent = MapComponent(tier: int)

  /** An inventory entity as the add-on sees it. `towerAugmentClass` is the host's answer to
      "does this item's base type have a class name containing TowerAugment". */
  datatype Item = Item(
    mods: Option<ModsComponent>,
    base: Option<BaseComponent>,
    mapComp: Option<MapComponent>,
    towerAugmentClass: bool)
  {
    /** A waystone is any item with a `Map` component. */
    predicate IsWaystone()
    {
      mapComp.Some?
    }

    /** A tablet has a `Base` component and a tower-augment base class. */
    predicate IsTablet()
    {
      base.Some? && towerAugmentClass
    }
  }

  /** The six crafting currencies, in the order of the add-on's currency list. */
  datatype Currency = Transmute | Augment | Regal | Alchemy | Exalt | Corrupt
  {
    /** The currency's base-type name, which is also its enablement key and the suffix of
        its item path in the stash. */
    function Name(): string
    {
      match this
      case Transmute => "CurrencyUpgradeToMagic"
      case Augment => "CurrencyAddModToMagic"
      case Regal => "CurrencyUpgradeMagicToRare"
      case Alchemy => "CurrencyUpgradeToRare"
      case Exalt => "CurrencyAddModToRare"
      case Corrupt => "CurrencyCorrupt"
    }
  }

  /** The add-on's currency list. */
  const CurrencyList: seq<Currency> := [Transmute, Augment, Regal, Alchemy, Exalt, Corrupt]

  /** `list.FirstOrDefault(c => c.Name == name)`: the first currency of `list` with that
      name, or null. */
  function FirstNamed(list: seq<Currency>, name: string): (r: Option<Currency>)
    ensures r.Some? ==> r.value in list && r.value.Name() == name
    ensures r.None? ==> forall c :: c in list ==> c.Name() != name
  {
    if |list| == 0 then None
    else if list[0].Name() == name then Some(list[0])
    else FirstNamed(list[1..], name)
  }

  /** Distinct currencies have distinct names. */
  lemma NameInjective(a: Currency, b: Currency)
    ensures a.Name() == b.Name() ==> a == b
  {
    if a != b && |a.Name()| == |b.Name()| {
      assert a.Name()[8] != b.Name()[8];
    }
  }

  /** A name that only one currency of the list carries finds that currency. */
  lemma {:induction false} FirstNamedUnique(list: seq<Currency>, c: Currency)
    requires c in list
    requires forall d :: d in list && d.Name() == c.Name() ==> d == c
    ensures FirstNamed(list, c.Name()) == Some(c)
  {
    if list[0] != c {
      assert c in list[1..];
      FirstNamedUnique(list[1..], c);
    }
  }

  /** Looking a currency up in the add-on's list by its own name finds that currency, so
      the currency lookups of the selector never yield null. */
  lemma CurrencyNamedRoundTrip(c: Currency)
    ensures FirstNamed(CurrencyList, c.Name()) == Some(c)
  {
    forall d: Currency ensures d.Name() == c.Name() ==> d == c {
      NameInjective(d, c);
    }
    assert c in CurrencyList;
    FirstNamedUnique(CurrencyList, c);
  }

  /** The user's per-currency switches, keyed by currency name; a key may be missing. */
  type Enablement = map<string, bool>

  /** The add-on's settings that the decision engine reads. */
  datatype CraftSettings = CraftSettings(alchemyCraftOnly: bool, currencyEnabled: Enablement)

  /** One queued crafting step (`CraftingResult`): the currency to apply and where the
      target item is. */
  datatype WorkItem = WorkItem(currency: Currency, itemClickPos: Point, item: Item)
}

=== FILE: text.dfy ===
/** The .NET string operations the add-on relies on, over `string` = `seq<char>`.
    Case-insensitive comparison folds ASCII letters only (see README). */
module Text {

  /** `char.IsWhiteSpace`: the Unicode space separators, line and paragraph separators,
      and the control characters U+0009..U+000D, U+0085. */
  predicate IsWhiteSpace(c: char)
  {
    || c == ' '
    || '\t' <= c <= '\r'
    || c == '\U{0085}'
    || c == '\U{00A0}'
    || c == '\U{1680}'
    || '\U{2000}' <= c <= '\U{200A}'
    || c == '\U{2028}'
    || c == '\U{2029}'
    || c == '\U{202F}'
    || c == '\U{205F}'
    || c == '\U{3000}'
  }

  /** True iff `s` neither starts nor ends with white space. */
  predicate IsTrimmed(s: string)
  {
    |s| == 0 || (!IsWhiteSpace(s[0]) && !IsWhiteSpace(s[|s| - 1]))
  }

  /** `string.TrimStart()`: drops the leading white space. */
  function TrimStart(s: string): (r: string)
    ensures |r| <= |s| && r == s[|s| - |r|..]
    ensures forall i :: 0 <= i < |s| - |r| ==> IsWhiteSpace(s[i])
    ensures |r| == 0 || !IsWhiteSpace(r[0])
  {
    if |s| > 0 && IsWhiteSpace(s[0]) then TrimStart(s[1..]) else s
  }

  /** `string.TrimEnd()`: drops the trailing white space. */
  function TrimEnd(s: string): (r: string)
    ensures |r| <= |s| && r == s[..|r|]
    ensures forall i :: |r| <= i < |s| ==> IsWhiteSpace(s[i])
    ensures |r| == 0 || !IsWhiteSpace(r[|r| - 1])
  {
    if |s| > 0 && IsWhiteSpace(s[|s| - 1]) then TrimEnd(s[..|s| - 1]) else s
  }

  /** `string.IsNullOrWhiteSpace` on a non-null string: every character is white space. */
  predicate IsBlank(s: string)
  {
    forall i :: 0 <= i < |s| ==> IsWhiteSpace(s[i])
  }

  /** `string.Trim()`: `s` with the white space cut off both ends; it is empty exactly
      when `s` is blank. The result is the infix of `s` between a blank head and a blank
      tail, and since it neither starts nor ends with white space those ends are maximal. */
  function Trim(s: string): (r: string)
    ensures IsTrimmed(r)
    ensures |r| == 0 <==> IsBlank(s)
    ensures exists a, b :: 0 <= a <= b <= |s| && r == s[a..b] && IsBlank(s[..a]) && IsBlank(s[b..])
  {
    var t := TrimStart(s);
    var r := TrimEnd(t);
    var a := |s| - |t|;
    assert r == s[a..a + |r|] && IsBlank(s[..a]);
    var tail := s[a + |r|..];
    assert IsBlank(tail) by {
      forall k | 0 <= k < |tail| ensures IsWhiteSpace(tail[k]) {
        assert tail[k] == t[|r| + k];
      }
    }
    r
  }

  /** Trimming only removes characters. */
  lemma TrimKeepsCharacters(s: string)
    ensures forall i :: 0 <= i < |Trim(s)| ==> Trim(s)[i] in s
  {
    var t := TrimStart(s);
    var r := TrimEnd(t);
    forall i | 0 <= i < |r| ensures r[i] in s {
      assert r[i] == t[i] == s[|s| - |t| + i];
    }
  }

  /** Invariant-culture lower-casing of one ASCII letter; every other character is kept. */
  function LowerChar(c: char): char
  {
    if 'A' <= c <= 'Z' then (c as int - 'A' as int + 'a' as int) as char else c
  }

  /** `string.ToLower()` on the ASCII letters. */
  function Lower(s: string): (r: string)
    ensures |r| == |s|
    ensures forall i :: 0 <= i < |s| ==> r[i] == LowerChar(s[i])
  {
    seq(|s|, i requires 0 <= i < |s| => LowerChar(s[i]))
  }

  /** True iff no upper-case ASCII letter occurs in `s`. */
  predicate IsLower(s: string)
  {
    forall i :: 0 <= i < |s| ==> !('A' <= s[i] <= 'Z')
  }

  lemma LowerIsLower(s: string)
    ensures IsLower(Lower(s))
    ensures Lower(Lower(s)) == Lower(s)
  {
  }

  /** Lower-casing maps white space to white space and nothing else to white space. */
  lemma LowerKeepsWhiteSpace(c: char)
    ensures IsWhiteSpace(LowerChar(c)) <==> IsWhiteSpace(c)
  {
  }

  /** A trimmed string stays trimmed once lower-cased. */
  lemma LowerKeepsTrimmed(s: string)
    requires IsTrimmed(s)
    ensures IsTrimmed(Lower(s))
  {
    if |s| > 0 {
      LowerKeepsWhiteSpace(s[0]);
      LowerKeepsWhiteSpace(s[|s| - 1]);
    }
  }

  /** Lower-casing neither introduces nor removes a non-letter character. */
  lemma LowerKeepsCharacter(s: string, c: char)
    requires !('A' <= c <= 'Z') && !('a' <= c <= 'z')
    ensures c in Lower(s) <==> c in s
  {
    if c in Lower(s) {
      var i :| 0 <= i < |s| && Lower(s)[i] == c;
      assert s[i] == c;
    }
    if c in s {
      var i :| 0 <= i < |s| && s[i] == c;
      assert Lower(s)[i] == c;
    }
  }

  /** `s.StartsWith(p)` with ordinal comparison. */
  predicate StartsWith(s: string, p: string)
  {
    p <= s
  }

  /** `s.EndsWith(p)` with ordinal comparison. */
  predicate EndsWith(s: string, p: string)
  {
    |p| <= |s| && s[|s| - |p|..] == p
  }

  /** `s.StartsWith(p, StringComparison.OrdinalIgnoreCase)`. */
  predicate StartsWithIgnoreCase(s: string, p: string)
  {
    StartsWith(Lower(s), Lower(p))
  }

  /** True iff `n` occurs in `h` starting at offset `i`. */
  predicate OccursAt(h: string, n: string, i: int)
  {
    0 <= i <= |h| - |n| && h[i..i + |n|] == n
  }

  /** `h.Contains(n)` with ordinal comparison, scanning `h` from the left. */
  predicate Contains(h: string, n: string)
    decreases |h|
  {
    n <= h || (|h| > 0 && Contains(h[1..], n))
  }

  /** `Contains` holds exactly when `n` sits at some offset of `h`. */
  lemma {:induction false} ContainsAt(h: string, n: string)
    ensures Contains(h, n) <==> exists i :: OccursAt(h, n, i)
    decreases |h|
  {
    if n <= h {
      assert OccursAt(h, n, 0);
    } else if |h| == 0 {
    } else {
      ContainsAt(h[1..], n);
      if exists i :: OccursAt(h, n, i) {
        var i :| OccursAt(h, n, i);
        assert i != 0;
        assert OccursAt(h[1..], n, i - 1);
      }
      if Contains(h[1..], n) {
        var i :| OccursAt(h[1..], n, i);
        assert OccursAt(h, n, i + 1);
      }
    }
  }

  /** Lower-casing keeps an occurrence where it is. */
  lemma LowerKeepsOccurrence(h: string, n: string, i: int)
    requires OccursAt(h, n, i)
    ensures OccursAt(Lower(h), Lower(n), i)
  {
    forall k | 0 <= k < |n| ensures Lower(h)[i..i + |n|][k] == Lower(n)[k] {
      assert h[i + k] == n[k];
    }
  }

  /** `h.Contains(n, StringComparison.OrdinalIgnoreCase)`. */
  predicate ContainsIgnoreCase(h: string, n: string)
  {
    Contains(Lower(h), Lower(n))
  }

  /** The inverse of `Split`: the parts glued back together with `sep` between them. */
  function Join(parts: seq<string>, sep: char): string
  {
    if |parts| == 0 then ""
    else if |parts| == 1 then parts[0]
    else parts[0] + [sep] + Join(parts[1..], sep)
  }

  /** Every character of a part occurs in the joined string. */
  lemma {:induction false} JoinedPieceIsInside(parts: seq<string>, sep: char, j: int)
    requires 0 <= j < |parts|
    ensures forall i :: 0 <= i < |parts[j]| ==> parts[j][i] in Join(parts, sep)
    decreases |parts|
  {
    if |parts| > 1 {
      var whole := Join(parts, sep);
      var rest := Join(parts[1..], sep);
      assert whole == parts[0] + [sep] + rest;
      if j == 0 {
        forall i | 0 <= i < |parts[0]| ensures parts[0][i] in whole {
          assert whole[i] == parts[0][i];
        }
      } else {
        JoinedPieceIsInside(parts[1..], sep, j - 1);
        forall i | 0 <= i < |parts[j]| ensures parts[j][i] in whole {
          assert parts[j] == parts[1..][j - 1];
          var q :| 0 <= q < |rest| && rest[q] == parts[j][i];
          assert whole[|parts[0]| + 1 + q] == rest[q];
        }
      }
    }
  }

  /** `s.Split(sep)`: the maximal separator-free pieces of `s`, in order; an empty
      string gives one empty piece. Joining them back gives `s` again. */
  function Split(s: string, sep: char): (parts: seq<string>)
    ensures |parts| >= 1
    ensures forall k :: 0 <= k < |parts| ==> sep !in parts[k]
    ensures Join(parts, sep) == s
    decreases |s|
  {
    if |s| == 0 then [""]
    else
      var rest := Split(s[1..], sep);
      if s[0] == sep then
        assert [sep] + Join(rest, sep) == s;
        [""] + rest
      else
        var parts := [[s[0]] + rest[0]] + rest[1..];
        assert parts[1..] == rest[1..];
        assert Join(parts, sep) == s by {
          if |rest| > 1 {
            assert Join(rest, sep) == rest[0] + [sep] + Join(rest[1..], sep);
          }
        }
        parts
  }
}

=== FILE: waystone_scoring.dfy ===
/** Waystone scoring: a weighted linear score over a waystone's mods, with a list of banned
    modifier texts that vetoes the whole score. */
module WaystoneScoring {
  import opened Wrappers
  import opened Text
  import opened Items

  // ---------------------------------------------------------------------------------------
  // Banned modifier list

  /** `x.Trim().ToLower()`. */
  function Normalize(x: string): string
  {
    Lower(Trim(x))
  }

  /** A usable banned entry: non-empty, trimmed, lower-case, comma-free. */
  predicate IsEntry(e: string)
  {
    e != "" && IsTrimmed(e) && IsLower(e) && ',' !in e
  }

  /** A comma-free piece that is not blank once normalised gives a usable entry. */
  lemma NormalizeIsEntry(x: string)
    requires ',' !in x && !IsBlank(Normalize(x))
    ensures IsEntry(Normalize(x))
  {
    var t := Trim(x);
    LowerKeepsTrimmed(t);
    LowerIsLower(t);
    TrimKeepsCharacters(x);
    assert ',' !in t by {
      forall i | 0 <= i < |t| ensures t[i] != ',' {
        assert t[i] in x;
      }
    }
    LowerKeepsCharacter(t, ',');
  }

  /** The `Select(x => x.Trim().ToLower())` stage. */
  function NormalizeAll(parts: seq<string>): (xs: seq<string>)
    ensures |xs| == |parts|
    ensures forall k :: 0 <= k < |parts| ==> xs[k] == Normalize(parts[k])
  {
    if |parts| == 0 then [] else [Normalize(parts[0])] + NormalizeAll(parts[1..])
  }

  /** The `Where(x => !string.IsNullOrWhiteSpace(x))` stage. */
  function DropBlank(xs: seq<string>): (ys: seq<string>)
    ensures |ys| <= |xs|
  {
    if |xs| == 0 then []
    else if IsBlank(xs[0]) then DropBlank(xs[1..])
    else [xs[0]] + DropBlank(xs[1..])
  }

  /** `a` is `b` with some elements left out, the rest kept in order. */
  predicate SubsequenceOf(a: seq<string>, b: seq<string>)
    decreases |b|
  {
    if |a| == 0 then true
    else if |b| == 0 then false
    else (a[0] == b[0] && SubsequenceOf(a[1..], b[1..])) || SubsequenceOf(a, b[1..])
  }

  /** The filter keeps exactly the non-blank strings, in their original order and each as
      many times as it occurs. */
  lemma {:induction false} DropBlankKeepsNonBlank(xs: seq<string>)
    ensures SubsequenceOf(DropBlank(xs), xs)
    ensures forall e :: e in DropBlank(xs) <==> e in xs && !IsBlank(e)
    ensures forall e :: multiset(DropBlank(xs))[e] == if IsBlank(e) then 0 else multiset(xs)[e]
    decreases |xs|
  {
    DropBlankCounts(xs);
    if |xs| > 0 {
      DropBlankKeepsNonBlank(xs[1..]);
      var ys := DropBlank(xs);
      if !IsBlank(xs[0]) {
        assert ys[1..] == DropBlank(xs[1..]);
      }
      assert forall e :: e in xs <==> e == xs[0] || e in xs[1..];
    }
  }

  /** The filter keeps each non-blank string as many times as it occurs. */
  lemma {:induction false} DropBlankCounts(xs: seq<string>)
    ensures forall e :: multiset(DropBlank(xs))[e] == if IsBlank(e) then 0 else multiset(xs)[e]
    decreases |xs|
  {
    if |xs| > 0 {
      DropBlankCounts(xs[1..]);
      assert xs == [xs[0]] + xs[1..];
      if !IsBlank(xs[0]) {
        assert DropBlank(xs) == [xs[0]] + DropBlank(xs[1..]);
      }
    }
  }

  /** A string kept by the filter is one of the normalised pieces, and so a usable entry. */
  lemma ParsedEntry(parts: seq<string>, e: string)
    requires forall k :: 0 <= k < |parts| ==> ',' !in parts[k]
    requires e in DropBlank(NormalizeAll(parts))
    ensures IsEntry(e)
  {
    var xs := NormalizeAll(parts);
    DropBlankKeepsNonBlank(xs);
    var j :| 0 <= j < |xs| && xs[j] == e;
    NormalizeIsEntry(parts[j]);
  }

  /** Normalising comma-free pieces and dropping the blank ones leaves usable entries only. */
  lemma ParsedAreEntries(parts: seq<string>)
    requires forall k :: 0 <= k < |parts| ==> ',' !in parts[k]
    ensures forall k :: 0 <= k < |DropBlank(NormalizeAll(parts))| ==> IsEntry(DropBlank(NormalizeAll(parts))[k])
  {
    var banned := DropBlank(NormalizeAll(parts));
    forall k | 0 <= k < |banned| ensures IsEntry(banned[k]) {
      ParsedEntry(parts, banned[k]);
    }
  }

  /** `ParseBannedModifiers`: the comma-separated setting split, trimmed, lower-cased, and
      stripped of blank entries. Every entry is non-empty, trimmed, lower-case and
      comma-free. */
  function ParseBannedModifiers(setting: string): (banned: seq<string>)
    ensures forall k :: 0 <= k < |banned| ==> IsEntry(banned[k])
  {
    var parts := Split(setting, ',');
    ParsedAreEntries(parts);
    DropBlank(NormalizeAll(parts))
  }

  /** Dropping blanks from a list of blank strings leaves nothing. */
  lemma {:induction false} DropBlankAllBlank(xs: seq<string>)
    requires forall k :: 0 <= k < |xs| ==> IsBlank(xs[k])
    ensures DropBlank(xs) == []
    decreases |xs|
  {
    if |xs| > 0 {
      assert IsBlank(xs[0]);
      DropBlankAllBlank(xs[1..]);
    }
  }

  lemma BlankNormalizesBlank(x: string)
    requires IsBlank(x)
    ensures IsBlank(Normalize(x))
  {
    assert Trim(x) == "";
  }

  /** An empty or all-blank setting gives an empty list, which vetoes no name. */
  lemma BlankSettingBansNothing(setting: string)
    requires IsBlank(setting)
    ensures ParseBannedModifiers(setting) == []
    ensures forall n :: !IsBannedModifier(n, ParseBannedModifiers(setting))
  {
    var parts := Split(setting, ',');
    var xs := NormalizeAll(parts);
    forall k | 0 <= k < |xs| ensures IsBlank(xs[k]) {
      JoinedPieceIsInside(parts, ',', k);
      forall i | 0 <= i < |parts[k]| ensures IsWhiteSpace(parts[k][i]) {
        assert parts[k][i] in setting;
      }
      BlankNormalizesBlank(parts[k]);
    }
    DropBlankAllBlank(xs);
    assert ParseBannedModifiers(setting) == DropBlank(xs);
  }

  /** Some piece normalises to `e`. */
  predicate IsNormalizedPiece(e: string, parts: seq<string>)
  {
    exists k :: 0 <= k < |parts| && Normalize(parts[k]) == e
  }

  /** The banned list is the setting's pieces, normalised, with blank ones left out in
      order: an entry is banned exactly when some piece normalises to it. */
  lemma BannedAreNormalizedPieces(setting: string)
    ensures SubsequenceOf(ParseBannedModifiers(setting), NormalizeAll(Split(setting, ',')))
    ensures forall e :: e in ParseBannedModifiers(setting) <==>
      !IsBlank(e) && IsNormalizedPiece(e, Split(setting, ','))
    ensures forall e :: multiset(ParseBannedModifiers(setting))[e] ==
              (if IsBlank(e) then 0 else multiset(NormalizeAll(Split(setting, ',')))[e])
  {
    var parts := Split(setting, ',');
    assert ParseBannedModifiers(setting) == DropBlank(NormalizeAll(parts));
    DroppedNormalized(parts);
  }

  /** `BannedAreNormalizedPieces` for any list of pieces. */
  lemma DroppedNormalized(parts: seq<string>)
    ensures SubsequenceOf(DropBlank(NormalizeAll(parts)), NormalizeAll(parts))
    ensures forall e :: e in DropBlank(NormalizeAll(parts)) <==> !IsBlank(e) && IsNormalizedPiece(e, parts)
    ensures forall e :: multiset(DropBlank(NormalizeAll(parts)))[e] ==
              (if IsBlank(e) then 0 else multiset(NormalizeAll(parts))[e])
  {
    var xs := NormalizeAll(parts);
    DropBlankKeepsNonBlank(xs);
    forall e ensures e in xs <==> IsNormalizedPiece(e, parts) {
      NormalizedMember(parts, e);
    }
  }

  /** A string is among the normalised pieces exactly when some piece normalises to it. */
  lemma NormalizedMember(parts: seq<string>, e: string)
    ensures e in NormalizeAll(parts) <==> IsNormalizedPiece(e, parts)
  {
    var xs := NormalizeAll(parts);
    if e in xs {
      var k :| 0 <= k < |xs| && xs[k] == e;
      assert Normalize(parts[k]) == e;
    }
    if IsNormalizedPiece(e, parts) {
      var k :| 0 <= k < |parts| && Normalize(parts[k]) == e;
      assert xs[k] == e;
    }
  }

  /** `IsBannedModifier`: the display name contains some banned entry, ignoring case. */
  predicate IsBannedModifier(displayName: string, banned: seq<string>)
  {
    exists b :: b in banned && ContainsIgnoreCase(displayName, b)
  }

  /** A name is banned exactly when some banned entry, lower-cased, occurs at some offset of
      the lower-cased name; in particular an occurrence in the same case bans it. */
  lemma BannedIffOccurs(displayName: string, banned: seq<string>)
    ensures IsBannedModifier(displayName, banned) <==>
      exists b, i :: b in banned && OccursAt(Lower(displayName), Lower(b), i)
    ensures forall b, i :: b in banned && OccursAt(displayName, b, i) ==> IsBannedModifier(displayName, banned)
  {
    forall b | b in banned {
      ContainsAt(Lower(displayName), Lower(b));
    }
    forall b, i | b in banned && OccursAt(displayName, b, i)
      ensures IsBannedModifier(displayName, banned)
    {
      LowerKeepsOccurrence(displayName, b, i);
      ContainsAt(Lower(displayName), Lower(b));
    }
  }

  // ---------------------------------------------------------------------------------------
  // Scoring

  /** The score coefficients of the scoring settings. */
  datatype ScoreWeights = ScoreWeights(
    scorePerQuantity: int,
    scorePerRarity: int,
    scorePerPackSize: int,
    scorePerMagicPackSize: int,
    scorePerExtraPacksPercent: int,
    scorePerExtraMagicPack: int,
    scorePerExtraRarePack: int,
    scorePerAdditionalPack: int,
    scoreForExtraRareMonsterModifier: int)

  /** The eight accumulators of the scoring loop and its extra-rare-modifier flag. */
  datatype Tally = Tally(
    iiq: int,
    iir: int,
    packSize: int,
    magicPackSize: int,
    extraPacks: int,
    extraMagicPack: int,
    extraRarePack: int,
    additionalPacks: int,
    extraRareMod: bool)
  {
    /** Field-wise sum; the flag is set when either side sets it. */
    function Plus(o: Tally): Tally
    {
      Tally(iiq + o.iiq, iir + o.iir, packSize + o.packSize, magicPackSize + o.magicPackSize,
            extraPacks + o.extraPacks, extraMagicPack + o.extraMagicPack,
            extraRarePack + o.extraRarePack, additionalPacks + o.additionalPacks,
            extraRareMod || o.extraRareMod)
    }
  }

  lemma PlusAssociative(a: Tally, b: Tally, c: Tally)
    ensures a.Plus(b).Plus(c) == a.Plus(b.Plus(c))
  {
  }

  /** The accumulators before the first mod. */
  const Empty := Tally(0, 0, 0, 0, 0, 0, 0, 0, false)

  const RarityIncrease := "MapDroppedItemRarityIncrease"
  const QuantityIncrease := "MapDroppedItemQuantityIncrease"
  const RareMonstersAdditionalModifier := "MapRareMonstersAdditionalModifier"
  const PackSizeIncrease := "MapPackSizeIncrease"
  const MagicPackSizeIncrease := "MapMagicPackSizeIncrease"
  const TotalEffectivenessIncrease := "MapTotalEffectivenessIncrease"
  const MagicPackIncrease := "MapMagicPackIncrease"
  const MagicRarePackIncrease := "MapMagicRarePackIncrease"
  const RarePackIncrease := "MapRarePackIncrease"
  const AdditionalPacksPrefix := "MapMonsterAdditionalPacks"

  /** The case of the scoring loop's `switch` a mod name selects, in the order the switch
      lists them: nine exact names, then any name starting with the additional-packs prefix. */
  datatype ModKind =
    | RarityKind | QuantityKind | RareMonsterKind | PackSizeKind | MagicPackSizeKind
    | EffectivenessKind | MagicPackKind | MagicRarePackKind | RarePackKind
    | AdditionalPacksKind | Unrecognised

  function KindOf(name: string): ModKind
  {
    if name == RarityIncrease then RarityKind
    else if name == QuantityIncrease then QuantityKind
    else if name == RareMonstersAdditionalModifier then RareMonsterKind
    else if name == PackSizeIncrease then PackSizeKind
    else if name == MagicPackSizeIncrease then MagicPackSizeKind
    else if name == TotalEffectivenessIncrease then EffectivenessKind
    else if name == MagicPackIncrease then MagicPackKind
    else if name == MagicRarePackIncrease then MagicRarePackKind
    else if name == RarePackIncrease then RarePackKind
    else if StartsWith(name, AdditionalPacksPrefix) then AdditionalPacksKind
    else Unrecognised
  }

  /** No exact case name starts with the additional-packs prefix, so every name with that
      prefix reaches the prefix case, and only those names do. */
  lemma PrefixCaseIsReachable(name: string)
    ensures KindOf(name) == AdditionalPacksKind <==> StartsWith(name, AdditionalPacksPrefix)
  {
    if StartsWith(name, AdditionalPacksPrefix) {
      assert name[3] == 'M' && name[4] == 'o';
      assert RarityIncrease[3] == 'D' && QuantityIncrease[3] == 'D';
      assert RareMonstersAdditionalModifier[3] == 'R' && RarePackIncrease[3] == 'R';
      assert PackSizeIncrease[3] == 'P' && TotalEffectivenessIncrease[3] == 'T';
      assert MagicPackSizeIncrease[4] == 'a' && MagicPackIncrease[4] == 'a';
      assert MagicRarePackIncrease[4] == 'a';
    }
  }

  /** The cases that read `Values[0]`. */
  predicate ReadsValue(k: ModKind)
  {
    k != RareMonsterKind && k != Unrecognised
  }

  /** A mod the scoring loop can read without an index error. */
  predicate HasValues(m: Mod)
  {
    ReadsValue(KindOf(m.name)) ==> |m.values| >= 1
  }

  /** One pass of the loop's `switch`: the accumulators after mod `m`, or null when the case
      reads a value the mod does not carry (an index error). */
  function Accumulate(t: Tally, m: Mod): Option<Tally>
  {
    SwitchCase(t, KindOf(m.name), m.values)
  }

  /** The body of the `switch` case `k` applied to the mod's values `v`. */
  function SwitchCase(t: Tally, k: ModKind, v: seq<int>): Option<Tally>
  {
    match k
    case RarityKind =>
      if |v| < 1 then None else Some(t.(iir := t.iir + v[0]))
    case QuantityKind =>
      if |v| < 1 then None
      else if |v| != 1 then
        if |v| < 2 then None else Some(t.(iiq := t.iiq + v[0], iir := t.iir + v[1]))
      else Some(t.(iiq := t.iiq + v[0]))
    case RareMonsterKind =>
      Some(t.(extraRareMod := true))
    case PackSizeKind =>
      if |v| < 1 then None else Some(t.(packSize := t.packSize + v[0]))
    case MagicPackSizeKind =>
      if |v| < 1 then None else Some(t.(magicPackSize := t.magicPackSize + v[0]))
    case EffectivenessKind =>
      if |v| < 1 then None else Some(t.(extraPacks := t.extraPacks + v[0]))
    case MagicPackKind =>
      if |v| < 1 then None else Some(t.(extraMagicPack := t.extraMagicPack + v[0]))
    case MagicRarePackKind =>
      if |v| < 1 then None
      else if |v| != 1 then
        if |v| < 2 then None
        else Some(t.(extraRarePack := t.extraRarePack + v[0], extraMagicPack := t.extraMagicPack + v[1]))
      else Some(t.(extraRarePack := t.extraRarePack + v[0]))
    case RarePackKind =>
      if |v| < 1 then None else Some(t.(extraRarePack := t.extraRarePack + v[0]))
    case AdditionalPacksKind =>
      if |v| < 1 then None else Some(t.(additionalPacks := t.additionalPacks + v[0]))
    case Unrecognised => Some(t)
  }

  /** `v[i]` when present, else 0. */
  function ValueAt(v: seq<int>, i: nat): int
  {
    if i < |v| then v[i] else 0
  }

  /** What a mod of kind `k` with values `v` contributes, stated accumulator by
      accumulator: which cases feed each accumulator and with which of the values. */
  function KindGain(k: ModKind, v: seq<int>): Tally
  {
    Tally(
      iiq := if k == QuantityKind then ValueAt(v, 0) else 0,
      iir := (if k == RarityKind then ValueAt(v, 0) else 0)
           + (if k == QuantityKind then ValueAt(v, 1) else 0),
      packSize := if k == PackSizeKind then ValueAt(v, 0) else 0,
      magicPackSize := if k == MagicPackSizeKind then ValueAt(v, 0) else 0,
      extraPacks := if k == EffectivenessKind then ValueAt(v, 0) else 0,
      extraMagicPack := (if k == MagicPackKind then ValueAt(v, 0) else 0)
                      + (if k == MagicRarePackKind then ValueAt(v, 1) else 0),
      extraRarePack := if k == MagicRarePackKind || k == RarePackKind then ValueAt(v, 0) else 0,
      additionalPacks := if k == AdditionalPacksKind then ValueAt(v, 0) else 0,
      extraRareMod := k == RareMonsterKind)
  }

  /** What one mod contributes. */
  function Gain(m: Mod): Tally
  {
    KindGain(KindOf(m.name), m.values)
  }

  /** Each `switch` case agrees with the accumulator-wise contribution: it fails exactly
      when it reads a value that is missing, and otherwise adds the gain. */
  lemma SwitchCaseAddsGain(t: Tally, k: ModKind, v: seq<int>)
    ensures SwitchCase(t, k, v).None? <==> ReadsValue(k) && |v| == 0
    ensures !(ReadsValue(k) && |v| == 0) ==> SwitchCase(t, k, v) == Some(t.Plus(KindGain(k, v)))
  {
  }

  /** The loop's `switch` fails exactly on a mod lacking a value it reads, and otherwise adds
      the mod's gain. */
  lemma AccumulateAddsGain(t: Tally, m: Mod)
    ensures Accumulate(t, m).None? <==> !HasValues(m)
    ensures HasValues(m) ==> Accumulate(t, m) == Some(t.Plus(Gain(m)))
  {
    SwitchCaseAddsGain(t, KindOf(m.name), m.values);
  }

  /** The sum of `g` over the mods, from the left. */
  function Sum(mods: seq<Mod>, g: Mod -> Tally): Tally
  {
    if |mods| == 0 then Empty else g(mods[0]).Plus(Sum(mods[1..], g))
  }

  /** The sum of the gains of all mods. */
  function Total(mods: seq<Mod>): Tally
  {
    Sum(mods, Gain)
  }

  /** The weighted linear sum of the accumulators, plus the flat bonus when the flag is set. */
  function Weighted(t: Tally, w: ScoreWeights): int
  {
    t.iiq * w.scorePerQuantity
    + t.iir * w.scorePerRarity
    + t.packSize * w.scorePerPackSize
    + t.magicPackSize * w.scorePerMagicPackSize
    + t.extraPacks * w.scorePerExtraPacksPercent
    + t.extraMagicPack * w.scorePerExtraMagicPack
    + t.extraRarePack * w.scorePerExtraRarePack
    + t.additionalPacks * w.scorePerAdditionalPack
    + (if t.extraRareMod then w.scoreForExtraRareMonsterModifier else 0)
  }

  /** How the scoring loop ends: a banned mod returned 0, an index error escaped, or every
      mod was accumulated. */
  datatype Scan = Vetoed | Faulted | Completed(tally: Tally)

  /** The `foreach` of the scoring loop, mod by mod in list order. */
  function ScanMods(t: Tally, mods: seq<Mod>, banned: seq<string>): Scan
    decreases |mods|
  {
    if |mods| == 0 then Completed(t)
    else if IsBannedModifier(mods[0].displayName, banned) then Vetoed
    else
      match Accumulate(t, mods[0])
      case None => Faulted
      case Some(t') => ScanMods(t', mods[1..], banned)
  }

  /** Some mod of the list has a banned display name. */
  predicate AnyBanned(mods: seq<Mod>, banned: seq<string>)
  {
    exists m :: m in mods && IsBannedModifier(m.displayName, banned)
  }

  /** Every mod of the list carries the values the loop reads. */
  predicate AllHaveValues(mods: seq<Mod>)
  {
    forall m :: m in mods ==> HasValues(m)
  }

  /** On well-formed mods the loop vetoes exactly when some mod is banned, whatever its
      position, and otherwise adds up the gains of all mods. */
  lemma {:induction false} ScanIsVetoOrTotal(t: Tally, mods: seq<Mod>, banned: seq<string>)
    requires AllHaveValues(mods)
    ensures AnyBanned(mods, banned) ==> ScanMods(t, mods, banned) == Vetoed
    ensures !AnyBanned(mods, banned) ==> ScanMods(t, mods, banned) == Completed(t.Plus(Total(mods)))
    decreases |mods|
  {
    if |mods| > 0 {
      assert mods[0] in mods;
      if !IsBannedModifier(mods[0].displayName, banned) {
        AccumulateAddsGain(t, mods[0]);
        assert forall m :: m in mods[1..] ==> m in mods;
        ScanIsVetoOrTotal(t.Plus(Gain(mods[0])), mods[1..], banned);
        PlusAssociative(t, Gain(mods[0]), Total(mods[1..]));
        if AnyBanned(mods, banned) {
          var m :| m in mods && IsBannedModifier(m.displayName, banned);
          assert m in mods[1..];
        } else {
          assert !AnyBanned(mods[1..], banned) by {
            forall m | m in mods[1..] ensures !IsBannedModifier(m.displayName, banned) {
              assert m in mods;
            }
          }
        }
      }
    }
  }

  /** The loop fails only if some mod lacks a value it reads. */
  lemma {:induction false} ScanFaultNeedsMissingValue(t: Tally, mods: seq<Mod>, banned: seq<string>)
    requires ScanMods(t, mods, banned) == Faulted
    ensures exists m :: m in mods && !HasValues(m)
    decreases |mods|
  {
    assert mods[0] in mods;
    if HasValues(mods[0]) {
      AccumulateAddsGain(t, mods[0]);
      ScanFaultNeedsMissingValue(t.Plus(Gain(mods[0])), mods[1..], banned);
      var m :| m in mods[1..] && !HasValues(m);
      assert m in mods;
    }
  }

  /** `CalculateWaystoneScore`, or `Threw` when an exception escapes it (a null mod list, or
      a mod lacking a value its case reads). A missing component or a tier below the minimum
      scores 0. */
  function CalculateWaystoneScore(item: Item, w: ScoreWeights, minimumTier: int, banned: seq<string>): (r: Outcome<int>)
    ensures item.mods.None? || item.mapComp.None? ==> r == Returned(0)
    ensures item.mapComp.Some? && item.mapComp.value.tier < minimumTier ==> r == Returned(0)
    ensures r.Threw? ==>
      item.mods.Some? && (item.mods.value.itemMods.None? || !AllHaveValues(item.mods.value.itemMods.value))
  {
    if item.mods.None? || item.mapComp.None? then Returned(0)
    else if item.mapComp.value.tier < minimumTier then Returned(0)
    else
      match item.mods.value.itemMods
      case None => Threw
      case Some(mods) =>
        match ScanMods(Empty, mods, banned)
        case Vetoed => Returned(0)
        case Faulted =>
          ScanFaultNeedsMissingValue(Empty, mods, banned);
          Threw
        case Completed(t) => Returned(Weighted(t, w))
  }

  /** The item passes the component and tier gates and has a well-formed mod list. */
  predicate Scorable(item: Item, minimumTier: int)
  {
    && item.mods.Some? && item.mapComp.Some? && item.mapComp.value.tier >= minimumTier
    && item.mods.value.itemMods.Some? && AllHaveValues(item.mods.value.itemMods.value)
  }

  lemma EmptyPlus(t: Tally)
    ensures Empty.Plus(t) == t
  {
  }

  /** A single banned mod anywhere zeroes the score, whatever the other mods contribute;
      without one the score is the weighted sum of all gains. */
  lemma ScoreIsVetoOrWeightedTotal(item: Item, w: ScoreWeights, minimumTier: int, banned: seq<string>)
    requires Scorable(item, minimumTier)
    ensures AnyBanned(item.mods.value.itemMods.value, banned) ==>
      CalculateWaystoneScore(item, w, minimumTier, banned) == Returned(0)
    ensures !AnyBanned(item.mods.value.itemMods.value, banned) ==>
      CalculateWaystoneScore(item, w, minimumTier, banned) ==
        Returned(Weighted(Total(item.mods.value.itemMods.value), w))
  {
    var mods := item.mods.value.itemMods.value;
    var scan := ScanMods(Empty, mods, banned);
    ScoreFollowsScan(item, w, minimumTier, banned);
    ScanIsVetoOrTotal(Empty, mods, banned);
    if !AnyBanned(mods, banned) {
      EmptyPlus(Total(mods));
      assert scan == Completed(Total(mods));
    }
  }

  /** On a scorable waystone the score is decided by the scan of its mods alone. */
  lemma ScoreFollowsScan(item: Item, w: ScoreWeights, minimumTier: int, banned: seq<string>)
    requires Scorable(item, minimumTier)
    ensures CalculateWaystoneScore(item, w, minimumTier, banned) ==
      ScoreOfScan(ScanMods(Empty, item.mods.value.itemMods.value, banned), w)
  {
  }

  /** The score a finished scan gives on a scorable waystone. */
  function ScoreOfScan(scan: Scan, w: ScoreWeights): Outcome<int>
  {
    match scan
    case Vetoed => Returned(0)
    case Faulted => Threw
    case Completed(t) => Returned(Weighted(t, w))
  }

  /** Sums over a concatenation add up. */
  lemma {:induction false} SumAppend(a: seq<Mod>, b: seq<Mod>, g: Mod -> Tally)
    ensures Sum(a + b, g) == Sum(a, g).Plus(Sum(b, g))
    decreases |a|
  {
    if |a| == 0 {
      assert a + b == b;
      EmptyPlus(Sum(b, g));
    } else {
      assert (a + b)[1..] == a[1..] + b;
      assert (a + b)[0] == a[0];
      SumAppend(a[1..], b, g);
      PlusAssociative(g(a[0]), Sum(a[1..], g), Sum(b, g));
    }
  }

  /** The gains of a concatenation add up. */
  lemma TotalAppend(a: seq<Mod>, b: seq<Mod>)
    ensures Total(a + b) == Total(a).Plus(Total(b))
  {
    SumAppend(a, b, Gain);
  }

  lemma PlusSwap(a: Tally, b: Tally, c: Tally)
    ensures a.Plus(b.Plus(c)) == b.Plus(a.Plus(c))
  {
  }

  /** Taking one mod out of the list and adding its term back leaves the sum unchanged. */
  lemma {:induction false} SumPick(s: seq<Mod>, j: int, g: Mod -> Tally)
    requires 0 <= j < |s|
    ensures Sum(s, g) == g(s[j]).Plus(Sum(s[..j] + s[j + 1..], g))
    decreases j
  {
    if j == 0 {
      assert s[..0] + s[1..] == s[1..];
    } else {
      var t := s[1..];
      SumPick(t, j - 1, g);
      var rest := t[..j - 1] + t[j..];
      var out := s[..j] + s[j + 1..];
      assert out == [s[0]] + rest;
      assert out[0] == s[0] && out[1..] == rest;
      assert t[j - 1] == s[j];
      PlusSwap(g(s[0]), g(s[j]), Sum(rest, g));
    }
  }

  /** Removing position `j` removes one occurrence of `s[j]` from the multiset. */
  lemma RemoveOne<T>(s: seq<T>, j: int)
    requires 0 <= j < |s|
    ensures multiset(s) == multiset(s[..j] + s[j + 1..]) + multiset{s[j]}
  {
    assert s == s[..j] + [s[j]] + s[j + 1..];
  }

  /** Multiset union with one element cancels. */
  lemma CancelOne<T>(x: multiset<T>, y: multiset<T>, e: T)
    requires x + multiset{e} == y + multiset{e}
    ensures x == y
  {
    forall z ensures x[z] == y[z] {
      assert (x + multiset{e})[z] == x[z] + multiset{e}[z];
      assert (y + multiset{e})[z] == y[z] + multiset{e}[z];
    }
  }

  /** The first element of `a` sits somewhere in a permutation `b` of it, and the rests
      are again permutations of each other. */
  lemma MatchFirst<T>(a: seq<T>, b: seq<T>) returns (j: int)
    requires |a| > 0 && multiset(a) == multiset(b)
    ensures 0 <= j < |b| && b[j] == a[0]
    ensures multiset(a[1..]) == multiset(b[..j] + b[j + 1..])
  {
    assert a[0] in multiset(b);
    j :| 0 <= j < |b| && b[j] == a[0];
    RemoveOne(b, j);
    RemoveOne(a, 0);
    assert a[..0] + a[1..] == a[1..];
    CancelOne(multiset(a[1..]), multiset(b[..j] + b[j + 1..]), a[0]);
  }

  /** Sums depend on the mods only, not on their order. */
  lemma {:induction false} SumPermutation(a: seq<Mod>, b: seq<Mod>, g: Mod -> Tally)
    requires multiset(a) == multiset(b)
    ensures Sum(a, g) == Sum(b, g)
    decreases |a|
  {
    if |a| == 0 {
      assert |b| == |multiset(b)| == 0;
    } else {
      var j := MatchFirst(a, b);
      SumPermutation(a[1..], b[..j] + b[j + 1..], g);
      SumPick(b, j, g);
    }
  }

  /** The total depends on the mods only, not on their order. */
  lemma TotalPermutation(a: seq<Mod>, b: seq<Mod>)
    requires multiset(a) == multiset(b)
    ensures Total(a) == Total(b)
  {
    SumPermutation(a, b, Gain);
  }

  /** On a scorable waystone, permuting the mods does not change the score, veto included. */
  lemma ScoreIgnoresModOrder(item: Item, mods': seq<Mod>, w: ScoreWeights, minimumTier: int, banned: seq<string>)
    requires Scorable(item, minimumTier)
    requires multiset(mods') == multiset(item.mods.value.itemMods.value)
    ensures CalculateWaystoneScore(WithMods(item, mods'), w, minimumTier, banned)
         == CalculateWaystoneScore(item, w, minimumTier, banned)
  {
    var mods := item.mods.value.itemMods.value;
    var item' := WithMods(item, mods');
    assert forall m :: m in mods' <==> m in multiset(mods');
    assert forall m :: m in mods <==> m in multiset(mods);
    assert Scorable(item', minimumTier);
    ScoreIsVetoOrWeightedTotal(item, w, minimumTier, banned);
    ScoreIsVetoOrWeightedTotal(item', w, minimumTier, banned);
    assert AnyBanned(mods, banned) <==> AnyBanned(mods', banned);
    TotalPermutation(mods', mods);
  }

  /** The item with its mod list replaced. */
  function WithMods(item: Item, mods: seq<Mod>): Item
    requires item.mods.Some?
  {
    item.(mods := Some(item.mods.value.(itemMods := Some(mods))))
  }

  /** Off the scorable waystones the order of the mods matters: a mod lacking a value its
      case reads throws when it comes before a banned mod, and is never read when it comes
      after one. */
  lemma OrderMattersOnMissingValues(item: Item, m1: Mod, m2: Mod, w: ScoreWeights, minimumTier: int, banned: seq<string>)
    requires item.mods.Some? && item.mapComp.Some? && item.mapComp.value.tier >= minimumTier
    requires !HasValues(m1) && !IsBannedModifier(m1.displayName, banned)
    requires IsBannedModifier(m2.displayName, banned)
    ensures CalculateWaystoneScore(WithMods(item, [m1, m2]), w, minimumTier, banned) == Threw
    ensures CalculateWaystoneScore(WithMods(item, [m2, m1]), w, minimumTier, banned) == Returned(0)
  {
    AccumulateAddsGain(Empty, m1);
  }

  /** A concrete pair: a rarity mod without values and a mod whose display name is banned. */
  lemma OrderMattersExample(item: Item, w: ScoreWeights)
    requires item.mods.Some? && item.mapComp.Some? && item.mapComp.value.tier >= 1
    ensures CalculateWaystoneScore(WithMods(item, [Mod(RarityIncrease, "y", "", []), Mod("", "x", "", [])]), w, 1, ["x"]) == Threw
    ensures CalculateWaystoneScore(WithMods(item, [Mod("", "x", "", []), Mod(RarityIncrease, "y", "", [])]), w, 1, ["x"]) == Returned(0)
  {
    var m1 := Mod(RarityIncrease, "y", "", []);
    var m2 := Mod("", "x", "", []);
    assert KindOf(m1.name) == RarityKind;
    assert Lower("x") == "x" && Lower("y") == "y";
    assert ContainsIgnoreCase("x", "x");
    assert !Contains("y", "x") by {
      assert "y"[0] != "x"[0];
      assert "y"[1..] == "";
    }
    OrderMattersOnMissingValues(item, m1, m2, w, 1, ["x"]);
  }

  /** The flag of the total is set exactly when some mod is the extra-rare-monster mod. */
  lemma {:induction false} TotalFlag(mods: seq<Mod>)
    ensures Total(mods).extraRareMod <==> exists m :: m in mods && KindOf(m.name) == RareMonsterKind
    decreases |mods|
  {
    if |mods| > 0 {
      TotalFlag(mods[1..]);
      assert mods[0] in mods;
      assert forall m :: m in mods[1..] ==> m in mods;
      assert forall m :: m in mods ==> m == mods[0] || m in mods[1..];
    }
  }

  lemma Distributes(x: int, y: int, c: int)
    ensures (x + y) * c == x * c + y * c
  {
  }

  /** The weighted sum is linear in the accumulators; the flat bonus is paid once when
      both sides set the flag. */
  lemma WeightedPlus(x: Tally, y: Tally, w: ScoreWeights)
    ensures Weighted(x.Plus(y), w) ==
      Weighted(x, w) + Weighted(y, w)
      - (if x.extraRareMod && y.extraRareMod then w.scoreForExtraRareMonsterModifier else 0)
  {
    Distributes(x.iiq, y.iiq, w.scorePerQuantity);
    Distributes(x.iir, y.iir, w.scorePerRarity);
    Distributes(x.packSize, y.packSize, w.scorePerPackSize);
    Distributes(x.magicPackSize, y.magicPackSize, w.scorePerMagicPackSize);
    Distributes(x.extraPacks, y.extraPacks, w.scorePerExtraPacksPercent);
    Distributes(x.extraMagicPack, y.extraMagicPack, w.scorePerExtraMagicPack);
    Distributes(x.extraRarePack, y.extraRarePack, w.scorePerExtraRarePack);
    Distributes(x.additionalPacks, y.additionalPacks, w.scorePerAdditionalPack);
  }

  /** Scores of two mod lists add up, except that the extra-rare-monster bonus is counted
      once when both lists carry that mod: the bonus is paid at most once. */
  lemma WeightedTotalAppend(a: seq<Mod>, b: seq<Mod>, w: ScoreWeights)
    ensures Weighted(Total(a + b), w) ==
      Weighted(Total(a), w) + Weighted(Total(b), w)
      - (if Total(a).extraRareMod && Total(b).extraRareMod then w.scoreForExtraRareMonsterModifier else 0)
  {
    TotalAppend(a, b);
    WeightedPlus(Total(a), Total(b), w);
  }

  /** A further extra-rare-monster mod on a list that already has one adds nothing. */
  lemma ExtraRareBonusOnce(mods: seq<Mod>, m: Mod, w: ScoreWeights)
    requires KindOf(m.name) == RareMonsterKind
    requires exists x :: x in mods && KindOf(x.name) == RareMonsterKind
    ensures Weighted(Total(mods + [m]), w) == Weighted(Total(mods), w)
  {
    WeightedTotalAppend(mods, [m], w);
    TotalFlag(mods);
    SingleRareMonsterTotal(m);
  }

  /** The extra-rare-monster mod alone sets the flag and nothing else. */
  lemma SingleRareMonsterTotal(m: Mod)
    requires KindOf(m.name) == RareMonsterKind
    ensures Total([m]) == Empty.(extraRareMod := true)
  {
    assert [m][1..] == [];
    assert Sum([m][1..], Gain) == Empty;
    assert Sum([m], Gain) == Gain(m).Plus(Empty);
    assert Gain(m) == Empty.(extraRareMod := true);
  }

  /** A mod whose name selects no case contributes nothing; a name starting with the
      additional-packs prefix feeds exactly the additional-packs accumulator. */
  lemma GainOfNames(m: Mod)
    ensures KindOf(m.name) == Unrecognised ==> Gain(m) == Empty
    ensures StartsWith(m.name, AdditionalPacksPrefix) ==>
      Gain(m) == Empty.(additionalPacks := ValueAt(m.values, 0))
  {
    PrefixCaseIsReachable(m.name);
  }

  /** The two-value cases: a two-value quantity mod adds its second value to rarity, and a
      two-value magic/rare pack mod adds its second value to the magic-pack accumulator. */
  lemma TwoValueCases(m: Mod)
    requires |m.values| >= 2
    ensures m.name == QuantityIncrease ==>
      Gain(m) == Empty.(iiq := m.values[0], iir := m.values[1])
    ensures m.name == MagicRarePackIncrease ==>
      Gain(m) == Empty.(extraRarePack := m.values[0], extraMagicPack := m.values[1])
  {
    assert KindOf(QuantityIncrease) == QuantityKind;
    assert KindOf(MagicRarePackIncrease) == MagicRarePackKind;
  }
}

=== FILE: wrappers.dfy ===
/** Failure-carrying datatypes shared by the whole model. */
module Wrappers {

  /** A value that may be absent: C#'s `null` for references and `T?` for value types. */
  datatype Option<+T> = None | Some(value: T)

  /** The outcome of a computation that may throw: either it returns a value, or an
      exception escapes (the model does not distinguish exception types). */
  datatype Outcome<+T> = Returned(value: T) | Threw
}
